=== FILE: README.md ===
# Uptime-monitor API: request-to-storage model

This project models the request-handling core of a small Node.js uptime-monitor
HTTP API. The API stores three collections, one JSON file per record:
`users` keyed by email, `tokens` keyed by a 50-character random id, and
`checks` (monitor definitions) keyed by a 20-character random id. It serves
four route families:

- the user service registers, fetches, updates and deletes accounts;
- the token service logs in (issues a bearer token), fetches, extends and
  revokes tokens, and offers `verify` to the check service;
- the check service creates, fetches, updates and deletes monitor
  definitions for the owner of a valid token. It enforces a quota of five
  checks per user and keeps the owner's `checks` list in step;
- the dispatcher trims the URL path, looks the route up with a not-found
  fallback, short-circuits OPTIONS, normalises status and payload, and wraps
  the answer in a `{success, data}` envelope.

Every handler is a pure function from the store, the clock reading `now`,
the request and an oracle to a `Reply(store', status, payload)`. The oracle
supplies the fresh random ids and says which storage operations fail. The
password hash is a function parameter. Each sequence of callbacks in the
source becomes one expression with the same early exits, in the same order
and with the same status codes and messages.

Modules, one per component:

| module | what it holds |
|---|---|
| `Wrappers` | `Option` |
| `Text` | JavaScript `trim`, the quote-stripping regex, the slash-trimming regex, ASCII `toLowerCase` |
| `Json` | decoded body values and the `typeof … ? v : false` field validators |
| `Records` | `User`, `Token`, `Check`, `Store` |
| `Kv` | the file store's create / read / update / delete |
| `Api` | `Request`, `Oracle`, `Payload`, `Reply` |
| `Tokens`, `Users`, `Checks` | the three services |
| `Routing` | the route table and the dispatcher |
| `Invariants` | store-wide invariants and their preservation over any request sequence |

Some behaviours of the code are kept as written:

- A missing `token` header, or a blank email in a user update, reaches the
  file store as JavaScript `false`, which names the file `false.json`. The
  model reads the key `"false"` (`Api.TokenKey`, `Users.UpdateKey`).
- The timeout validator accepts 0, but create's truthiness test then
  rejects it, and update never writes a falsy timeout. The accepted range is
  therefore 1..5, not 0..5 (`Checks.CompleteIff`, `Invariants.MergeKeepsWellFormed`).
- A user read that fails during registration counts as "no such user". The
  request then goes on to create, which fails on an existing file with 500.
- Deleting a check removes the record before it edits the owner's list. A
  failure in between leaves a stale id on the list
  (`Invariants.PartialDeleteLeavesStaleList`). The list invariant therefore
  holds only for storage that does not fail (`Invariants.ReplayKeepsConsistent`).
  The quota and the check shapes hold for any storage behaviour
  (`Invariants.ReplayKeepsSafe`).

## Model

| member | source | states |
|---|---|---|
| `Text.TrimEmptyIffBlank` | handlers/checkHandler.js:40 | with `Text.Trim` as `String.prototype.trim`, `s.trim().length > 0` holds exactly when `s` has a character outside JavaScript white space |
| `Text.StripQuotesOfQuoted` | handlers/userHandler.js:95 | `Text.StripQuotes` inverts quoting: a value wrapped in one pair of double quotes comes back as exactly the inner value |
| `Text.StripQuotesShape` | handlers/userHandler.js:95 | a value that neither starts nor ends with a quote is unchanged, and stripping removes at most two characters |
| `Text.StripQuotesOnlyQuotes` | handlers/userHandler.js:93-98 | `"`, `""` become empty (and so fail the later email test) and `"""` keeps one quote |
| `Text.DropLeading` | helpers/handleReqRes.js:23 | the result is the input after a run of leading slashes, and does not itself start with a slash |
| `Text.DropTrailing` | helpers/handleReqRes.js:23 | the result is the input before a run of trailing slashes, and does not itself end with a slash |
| `Text.TrimSlashesShape` | helpers/handleReqRes.js:23 | the path `Text.TrimSlashes` returns has no slash at either end, and the path is that trimmed path between two runs of slashes |
| `Text.TrimSlashesSplit` | helpers/handleReqRes.js:23 | the path is the trimmed path between a run of leading and a run of trailing slashes |
| `Text.TrimSlashesUnique` | helpers/handleReqRes.js:23 | any slash-free middle between two runs of slashes is exactly what trimming returns; interior slashes are kept |
| `Text.RootPathsTrimToEmpty` | helpers/handleReqRes.js:23 | "", "/" and "///" trim to the empty route; "/user/" trims to "user" and "//a/b//" to "a/b" |
| `Text.Length` | handlers/tokenHandler.js:94 | JavaScript `length` lies between the character count and twice it, and is 0 only for the empty string |
| `Text.LengthWithoutAstral` | handlers/tokenHandler.js:94 | without characters outside the Basic Multilingual Plane, `length` is the character count |
| `Text.LengthAllAstral` | handlers/tokenHandler.js:94 | a string of astral characters has `length` twice its character count |
| `Text.Lower` | helpers/handleReqRes.js:24 | lowercasing keeps the length and maps each character on its own |
| `Text.LowerIdempotent` | helpers/handleReqRes.js:24 | lowercasing twice, once in the dispatcher and once in a service, equals lowercasing once |
| `Json.NonBlank` | handlers/checkHandler.js:40 | a field passes exactly when it is a string with a non-white-space character, and passes unchanged |
| `Json.OneOf` | handlers/checkHandler.js:36-45 | a field passes exactly when it is a string equal, case included, to one of the options |
| `Json.ArrayOf` | handlers/checkHandler.js:46-49 | a field passes exactly when it is an array, and passes its items |
| `Json.WholeIn` | handlers/checkHandler.js:50-56 | a field passes exactly when it is a whole number within the bounds, and yields that number |
| `Json.BoolOr` | handlers/tokenHandler.js:121 | only the boolean `true` is truthy after the boolean test |
| `Kv.Create` | lib/data.js:18-39 | create succeeds iff the key is absent and no fault is injected; the new record is added and no other changes |
| `Kv.Read` | lib/data.js:42-54 | read succeeds iff the key is present and no fault is injected, and yields the stored record |
| `Kv.Update` | lib/data.js:57-80 | update succeeds iff the key is present and no fault is injected; only that record changes |
| `Kv.Delete` | lib/data.js:83-95 | delete succeeds iff the key is present and no fault is injected; exactly that key disappears |
| `Kv.CreateDeleteRoundTrip` | lib/data.js:18-95 | creating then reading yields the record; creating then deleting restores the collection |
| `Tokens.TokenId` | handlers/tokenHandler.js:94 | an id parameter is accepted exactly when it is a string whose trimmed JavaScript length, in UTF-16 code units, is 50; the untrimmed string is the key |
| `Tokens.Verify` | handlers/tokenHandler.js:186-199 | verify is true iff the token reads back, names the given email and `now < expires` |
| `Tokens.Issue` | handlers/tokenHandler.js:40-83 | blank email or password gives 400; a wrong hash gives 400; 500 iff the user read fails or the token create fails; 200 iff all pass and the create succeeds; success stores and returns `{email, id, now + 1 day}`; only tokens change |
| `Tokens.Fetch` | handlers/tokenHandler.js:90-109 | 400 iff the id is not 50 code units trimmed; 200 iff the token reads back, returning it; never writes |
| `Tokens.Extend` | handlers/tokenHandler.js:116-150 | an invalid id, a non-`true` extend, a missing token or an expired one gives 400; 500 iff all pass but the update fails; 200 iff the update succeeds, and then only its `expires` becomes `now + 1 day`; otherwise nothing changes |
| `Tokens.Revoke` | handlers/tokenHandler.js:157-184 | 400 iff the id is invalid or the token does not read back; 500 iff the delete then fails; 200 iff it succeeds, removing exactly that token and returning its former contents |
| `Tokens.Handle` | handlers/tokenHandler.js:19-30 | 405 iff the lowercased method is not post/get/put/delete, and then nothing changes; users and checks never change; post, get, put and delete, in any letter case, run `Issue`, `Fetch`, `Extend` and `Revoke` respectively |
| `Tokens.ExtendAgreesWithVerify` | handlers/tokenHandler.js:130 | at the same instant, extend accepts a stored token exactly when it verifies for its own owner |
| `Tokens.IssuedTokenVerifies` | handlers/tokenHandler.js:57-74 | a freshly issued token verifies for its email at any later instant before `now + 1 day`, and not after |
| `Tokens.GeneratedIdAccepted` | handlers/tokenHandler.js:58 | a generated 50-character id passes the id test of fetch, extend and revoke |
| `Tokens.IssueThenRevoke` | handlers/tokenHandler.js:157-184 | revoking a just-issued token restores the store and returns the issued record |
| `Tokens.RevokeAfterCreate` | handlers/tokenHandler.js:164-176 | revoking a token that was added to a store restores that store |
| `Tokens.TokenIdCountsCodeUnits` | handlers/tokenHandler.js:120 | 25 astral characters pass the 50-unit id test and any other number of them fails it |
| `Tokens.IssueThenFetch` | handlers/tokenHandler.js:90-105 | fetching by the id handed out at login answers 200 with the issued token |
| `Tokens.FetchStored` | handlers/tokenHandler.js:99-101 | a stored token is fetched by its id and returned as stored |
| `Tokens.ExtendedTokenVerifies` | handlers/tokenHandler.js:130-131 | after a successful extend the token verifies for its owner at any instant before `now + 1 day`, and not after |
| `Users.Hashed` | handlers/userHandler.js:54-57 | a password passes exactly when it is non-blank and hashes to a truthy value, and is replaced by its hash |
| `Users.QueryEmail` | handlers/userHandler.js:93-98 | the email parameter passes the non-blank test, is quote-stripped, and must be non-empty afterwards |
| `Users.NewUser` | handlers/userHandler.js:41-62 | registration data is valid iff the five strings are non-blank, the password hashes and `tos` is `true`; the record holds the hash and no `checks` |
| `Users.Register` | handlers/userHandler.js:40-82 | invalid data gives 400; an existing email gives 400; 500 iff the data is valid, the read reports no user and the create then fails; 200 iff valid, new and the create succeeds, storing and returning the record; tokens and checks never change |
| `Users.Fetch` | handlers/userHandler.js:89-112 | 400 iff the stripped email is missing or empty; 200 iff the user reads back, returning it without password (`Records.WithoutPassword`); never writes |
| `Users.Merge` | handlers/userHandler.js:141-146 | only the supplied names and password change; email, phone, tos and checks are kept |
| `Users.Update` | handlers/userHandler.js:119-164 | 400 iff no valid field; 404 iff some field is valid but the user does not read back under `Users.UpdateKey`, the body's non-blank email or else the key `false`; 500 iff the update then fails; 200 iff it succeeds, changing only that user, and the response omits the password |
| `Users.Delete` | handlers/userHandler.js:171-190 | 400 iff the stripped email is missing or empty; 200 iff the delete succeeds, removing only that user; tokens and checks remain |
| `Users.Handle` | handlers/userHandler.js:19-30 | 405 iff the lowercased method is not post/get/put/delete, and then nothing changes; tokens and checks never change; post, get, put and delete, in any letter case, run `Register`, `Fetch`, `Update` and `Delete` respectively |
| `Users.QueryEmailNames` | handlers/userHandler.js:93-98 | an email sent bare or in one pair of quotes names the same account |
| `Users.RegisterThenFetch` | handlers/userHandler.js:62-108 | fetching a just-registered account returns it without the password |
| `Users.RegisterThenDelete` | handlers/userHandler.js:171-190 | deleting a just-registered account restores the store |
| `Users.Registered` | handlers/userHandler.js:62-70 | a successful registration adds exactly the new record under its previously absent, non-blank email |
| `Users.DeleteAfterCreate` | handlers/userHandler.js:180-182 | deleting a user that was added to a store restores that store |
| `Checks.WholeInRange` | handlers/checkHandler.js:50-56 | the whole numbers from 0 to 5 are exactly the six values 0..5 |
| `Checks.TimeoutInRange` | handlers/checkHandler.js:50-56 | the timeout validator passes exactly the JSON numbers 0..5 |
| `Checks.Validate` | handlers/checkHandler.js:34-56 | each of the five fields passes exactly under its own test, and passes the body's value |
| `Checks.CompleteIff` | handlers/checkHandler.js:58 | create accepts a body iff protocol is http/https, url is non-blank, method is one of the four upper-case names, successCodes is an array and timeOutSeconds is 1..5 |
| `Checks.Authorise` | handlers/checkHandler.js:59-70 | authorisation succeeds iff the token reads back, its email names a stored user and the token has not expired; the owner is the token's email; the token key is `Api.TokenKey`, the `token` header or else the key `false` |
| `Checks.NewCheck` | handlers/checkHandler.js:79-88 | the stored check carries the fresh id, the owner email and the five validated fields |
| `Checks.Create` | handlers/checkHandler.js:33-129 | 400 iff the body is incomplete; 403 iff authorisation fails; 401 iff the owner lists five or more; 500 iff below quota and either write fails; 200 iff both succeed, storing the check and appending its id to the owner's list; after 200 the owner lists at most five; a 500 never changes users, and when the check was written before the user update failed the check stays stored exactly |
| `Checks.Get` | handlers/checkHandler.js:131-159 | 400 iff the id is blank; 404 iff the check is absent; 200 iff the token verifies for the check's owner, returning the record; never writes |
| `Checks.MergeCheck` | handlers/checkHandler.js:194-200 | each field is replaced only by a truthy validated value; id and owner are kept |
| `Checks.Update` | handlers/checkHandler.js:161-228 | 400 iff the id is blank or no field is valid; then 404 iff the check does not read back, 403 iff the token does not verify for its owner, 500 iff the update fails, and 200 iff it succeeds, storing the merge; otherwise nothing changes |
| `Checks.Without` | handlers/checkHandler.js:258 | the filtered list drops every occurrence of the id and keeps every other id |
| `Checks.WithoutConcat` | handlers/checkHandler.js:258 | filtering distributes over concatenation, so the remaining ids keep their order |
| `Checks.WithoutAppended` | handlers/checkHandler.js:94 | filtering out an id just appended to a list that lacked it gives the list back |
| `Checks.Delete` | handlers/checkHandler.js:230-290 | 400, 404, 403 exactly on a blank id, an absent check, a failed verify; 200 iff every later step succeeds, removing the check and filtering its id from the owner's list; a 500 keeps the users, and the check is gone unless its own delete failed |
| `Checks.Handle` | handlers/checkHandler.js:17-28 | 405 iff the lowercased method is not post/get/put/delete, and then nothing changes; tokens never change; post, get, put and delete, in any letter case, run `Create`, `Get`, `Update` and `Delete` respectively |
| `Checks.GeneratedIdAccepted` | handlers/checkHandler.js:79 | a generated 20-character id passes the id test of get and delete |
| `Checks.CreateThenGet` | handlers/checkHandler.js:138-147 | the owner's token fetches a just-created check unchanged |
| `Checks.GetAfterCreate` | handlers/checkHandler.js:138-147 | a check added to a store and listed by its owner is fetched by the owner's live token |
| `Checks.CreateThenDelete` | handlers/checkHandler.js:247-262 | deleting a just-created check restores the store, except that an owner without a list now has an empty one |
| `Checks.DeleteAfterCreate` | handlers/checkHandler.js:247-262 | deleting a check added to a store restores that store up to the owner's empty list |
| `Checks.DeleteThenGet` | handlers/checkHandler.js:138-153 | once deleted, a check is not found |
| `Routing.RouteKeys` | routes/route.js:19-26 | the route table has exactly the six keys "", about, user, token, notFound and check |
| `Routing.SelectIgnoresSlashes` | helpers/handleReqRes.js:23-40 | slashes around a path never change the selected handler; a longer path is looked up whole |
| `Routing.RouteReached` | routes/route.js:20-25 | every route, the empty one included, is reached however many slashes surround it |
| `Routing.Invoke` | routes/route.js:19-26 | home and about answer 200, not-found 404, all three without writing; each service touches only its collections and answers 405 iff the method is not accepted; the user, token and check routes run `Users.Handle`, `Tokens.Handle` and `Checks.Handle` respectively |
| `Routing.Respond` | helpers/handleReqRes.js:71-83 | a missing status becomes 500 and a missing payload `{}`; success is true iff 200 ≤ status < 300 |
| `Routing.HandleReqRes` | helpers/handleReqRes.js:22-83 | an OPTIONS method in any letter case answers 204 without running a handler; otherwise the handler of the trimmed path runs on the lowercased method and its answer is enveloped |
| `Routing.UnknownPathIsNotFound` | helpers/handleReqRes.js:38-40 | `Routing.Select` falls back to the not-found handler: a path outside the table answers 404 and changes nothing |
| `Routing.UnsupportedMethodIs405` | helpers/handleReqRes.js:24-40 | on a service path, any other method answers 405 in a failed envelope and changes nothing |
| `Invariants.EmptyStoreConsistent` | lib/data.js:18-39 | a store with no records satisfies quota, shapes and lists, so every replay can start from it |
| `Invariants.ValidatedFieldsWellFormed` | handlers/checkHandler.js:36-56 | a validated protocol, url, method and truthy timeout have the shape of a well-formed check |
| `Invariants.NewCheckWellFormed` | handlers/checkHandler.js:79-88 | every check create builds is well formed |
| `Invariants.MergeKeepsWellFormed` | handlers/checkHandler.js:194-200 | merging an update into a well-formed check keeps it well formed, so a 0 timeout is never stored |
| `Invariants.AddListedCheck` | handlers/checkHandler.js:90-102 | storing a new check and appending it to an owner below the quota keeps quota, shapes and lists |
| `Invariants.AddUnlistedCheck` | handlers/checkHandler.js:90-104 | a check stored without being listed keeps every invariant |
| `Invariants.ReplaceCheck` | handlers/checkHandler.js:205-213 | rewriting a check with its id and owner kept keeps every invariant |
| `Invariants.RemoveListedCheck` | handlers/checkHandler.js:247-262 | removing a check and filtering it from its owner's list keeps every invariant |
| `Invariants.RemoveCheck` | handlers/checkHandler.js:247-276 | removing a check alone keeps quota and shapes; from consistent lists it keeps them consistent exactly when its owner is not a user listing it |
| `Invariants.CreateKeeps` | handlers/checkHandler.js:33-129 | check create, on every path, keeps quota, shapes and lists |
| `Invariants.UpdateKeeps` | handlers/checkHandler.js:161-228 | check update, on every path, keeps quota, shapes and lists |
| `Invariants.DeleteKeeps` | handlers/checkHandler.js:230-290 | check delete keeps quota and shapes, and keeps lists when storage does not fail |
| `Invariants.PartialDeleteLeavesStaleList` | handlers/checkHandler.js:247-273 | a delete that removes the check and then fails leaves its id on the owner's list, breaking list consistency |
| `Invariants.CheckServiceKeeps` | handlers/checkHandler.js:17-28 | every check-service request keeps quota and shapes, and lists under non-failing storage |
| `Invariants.UserServiceKeepsLists` | handlers/userHandler.js:40-190 | no user-service request changes a check or a kept user's list, and new users have no list |
| `Invariants.ListsUntouched` | handlers/userHandler.js:171-190 | a users-only change that keeps every surviving list keeps every invariant, even when an owner is deleted |
| `Invariants.SameRecords` | handlers/tokenHandler.js:19-30 | a request that leaves users and checks alone, as every token request and page does, keeps every invariant |
| `Invariants.UserServiceKeeps` | handlers/userHandler.js:19-30 | every user-service request keeps every invariant |
| `Invariants.DispatchKeeps` | helpers/handleReqRes.js:38-83 | every request, any route and method, keeps quota and shapes, and lists under non-failing storage |
| `Invariants.ReplayKeepsSafe` | handlers/checkHandler.js:73-78 | after any sequence of requests, under any storage behaviour, no user lists more than five checks and every check is well formed |
| `Invariants.ReplayKeepsConsistent` | handlers/checkHandler.js:90-105 | after any sequence of requests served by storage that does not fail, every listed id names a stored check of that user |

## Left out

- File I/O of `lib/data.js`. The store is an abstract map per collection with the contract of `Kv`. The early success callback that `create` sends before writing, and the possible second callback on a later write error, are not modelled. Each storage operation either succeeds completely or fails without effect.
- Keys are opaque names within one collection. In `lib/data.js` the file path is the collection directory joined with the raw key, so an email containing `/` or `..` (from the user service's body or query) reaches another collection's files: deleting user `../checks/<id>` removes a check file while its id stays listed, and registering such an email writes a user record among the checks. The frame clauses of the services and the `Invariants` rows assume no key does this.
- Storage faults are per request and per operation kind. The oracle makes every create, read, update or delete of one collection fail or succeed alike within one request. Faults that hit only the second of two reads of the same kind are not expressible.
- The SHA-256 hash and `JSON.parse` of `helpers/utilities.js`. The hash is a function parameter. Stored records are typed datatypes, so malformed stored JSON and `parseJsonToObject` falling back to `{}` are not modelled.
- `Users.Hashed`: the source's `hash` returns `false` only for an empty string, which the non-blank test already excludes. The model instead treats a parameter returning `""` as that falsy result.
- The random string generator `token` is called by the token and check services but `helpers/utilities.js` does not export it. Id generation is the oracle's `newId(n)`, which may return any string; the round-trip lemmas assume an id of the generator's shape (`IdShape`: the requested number of characters, none of them white space or outside the Basic Multilingual Plane, as an alphanumeric alphabet gives).
- `Date.now()` is the parameter `now`. Within one request the two readings in token extend are taken as equal.
- Concurrency: interleaved requests, last-write-wins races, and the implicit global `userEmail` assignment in check create. Requests are served one after another.
- Transport: `index.js`, body streaming and UTF-8 decoding, URL parsing, and the CORS headers. The request arrives already decoded; a body that parses to JSON `null`, on which destructuring throws, is not modelled. A body that fails to parse becomes `{}` through `parseJsonToObject`, and an array, number, string or boolean body destructures to undefined fields; both are the empty `Body` map.
- Route lookups through the JavaScript prototype chain (a path such as `constructor`). Routes are a finite map.
- The payloads of the home, about and not-found handlers echo the request. They are modelled as a constant message with their status.
- `toLowerCase` outside ASCII. `Text.LowerChar` lowers `A`–`Z` only.
- Non-finite JSON numbers and floating-point rounding. Numbers are exact reals.

=== FILE: api.dfy ===
/** What a service receives and what it hands back: the parsed request,
    the oracle for everything outside the model, and the reply made of the
    new store, a status code and a payload. */
module Api {
  import opened Wrappers
  import opened Text
  import Json
  import Kv
  import opened Records

  /** The request properties the dispatcher builds: method, path, query
      parameters (always strings), headers and the decoded body. */
  datatype Request = Request(
    httpMethod: string,
    path: string,
    query: map<string, string>,
    headers: map<string, string>,
    body: Json.Body)

  /** Random ids and storage failures. `newId(n)` is the id the random
      string generator returns when asked for `n` characters; an operation
      listed in `faults` fails whenever the request performs it. */
  datatype Oracle = Oracle(newId: nat -> string, faults: set<Kv.Fault>) {
    predicate Fails(c: Kv.Collection, op: Kv.Op)
    {
      Kv.Fault(c, op) in faults
    }
  }

  /** No storage operation fails. */
  predicate Reliable(o: Oracle)
  {
    o.faults == {}
  }

  /** An id as the random string generator produces it: `n` characters,
      none of them white space or outside the Basic Multilingual Plane. */
  predicate IdShape(id: string, n: nat)
  {
    |id| == n && forall i | 0 <= i < |id| :: !IsSpace(id[i]) && !Astral(id[i])
  }

  /** The JSON objects the services answer with. */
  datatype Payload =
    | Empty                                          // {}
    | Message(msg: string)                           // { msg }
    | LimitError(error: string)                      // { error }
    | MessageEmail(msg: string, email: Option<string>)  // { msg, email }; None is `false`
    | CheckData(check: Check)
    | TokenData(token: Token)
    | TokenRemoved(msg: string, tokenInfo: Token)    // { msg, tokenInfo }
    | UserData(user: User)
    | UserView(view: PublicUser)
    | Page(message: string)                          // home, about and not-found pages

  /** The store after the request, the status code and the payload. */
  datatype Reply = Reply(store: Store, status: int, payload: Payload)

  /** A query parameter as a JSON string value, absent when not given. */
  function QueryField(req: Request, name: string): Option<Json.Value>
  {
    if name in req.query then Some(Json.Str(req.query[name])) else None
  }

  /** The `token` header, or the key the source's `false` turns into when
      the header is missing: `read("tokens", false)` opens `false.json`. */
  function TokenKey(req: Request): string
  {
    if "token" in req.headers then req.headers["token"] else "false"
  }

  /** The sub-operations every service accepts, after lowercasing. */
  const ServiceMethods: seq<string> := ["post", "get", "put", "delete"]

  predicate Accepted(httpMethod: string)
  {
    Lower(httpMethod) in ServiceMethods
  }

  const MethodNotAllowed := Message("Method not allowed")
}

=== FILE: checks.dfy ===
/** The check service: create, fetch, update and delete monitor
    definitions. Every operation authorises through a token that must
    verify for the check's owner; create also enforces the five-check
    quota and appends to the owner's list, delete filters the list. The
    `tokens` collection never changes. */
module Checks {
  import opened Wrappers
  import opened Text
  import opened Json
  import opened Records
  import opened Api
  import Kv
  import Tokens

  /** A user may list at most this many checks. */
  const MaxChecks: nat := 5

  /** Check ids have exactly this many characters. */
  const IdLength: nat := 20

  const Protocols: seq<string> := ["http", "https"]
  const Methods: seq<string> := ["GET", "POST", "PUT", "DELETE"]
  const MaxTimeout: int := 5

  /** The five monitor fields of a body after validation; `None` is the
      source's `false`. */
  datatype Fields = Fields(
    protocol: Option<string>,
    url: Option<string>,
    httpMethod: Option<string>,
    successCodes: Option<seq<Value>>,
    timeOutSeconds: Option<int>)

  /** The whole numbers from 0 to 5 as JSON numbers. */
  predicate SmallWhole(n: real)
  {
    n == 0.0 || n == 1.0 || n == 2.0 || n == 3.0 || n == 4.0 || n == 5.0
  }

  lemma WholeInRange(n: real)
    ensures (n == n.Floor as real && 0.0 <= n <= MaxTimeout as real) <==> SmallWhole(n)
  {
    if n == n.Floor as real && 0.0 <= n <= MaxTimeout as real {
      var k := n.Floor;
      assert 0 <= k <= 5;
      assert k == 0 || k == 1 || k == 2 || k == 3 || k == 4 || k == 5;
    }
  }

  lemma TimeoutInRange(body: Body)
    ensures WholeIn(Field(body, "timeOutSeconds"), 0, MaxTimeout).Some? <==>
            "timeOutSeconds" in body && body["timeOutSeconds"].Num? && SmallWhole(body["timeOutSeconds"].n)
  {
    if "timeOutSeconds" in body && body["timeOutSeconds"].Num? {
      WholeInRange(body["timeOutSeconds"].n);
    }
  }

  /** The per-field validation shared by create and update. */
  function Validate(body: Body): (f: Fields)
    ensures f.protocol.Some? <==> Field(body, "protocol") == Some(Str("http")) || Field(body, "protocol") == Some(Str("https"))
    ensures f.url.Some? <==> "url" in body && body["url"].Str? && !IsBlank(body["url"].s)
    ensures f.httpMethod.Some? <==> "method" in body && body["method"].Str? && body["method"].s in Methods
    ensures f.successCodes.Some? <==> "successCodes" in body && body["successCodes"].Arr?
    ensures f.timeOutSeconds.Some? <==> "timeOutSeconds" in body && body["timeOutSeconds"].Num? && SmallWhole(body["timeOutSeconds"].n)
    ensures f.protocol.Some? ==> f.protocol.value == body["protocol"].s
    ensures f.url.Some? ==> f.url.value == body["url"].s
    ensures f.httpMethod.Some? ==> f.httpMethod.value == body["method"].s
    ensures f.successCodes.Some? ==> f.successCodes.value == body["successCodes"].items
    ensures f.timeOutSeconds.Some? ==> f.timeOutSeconds.value as real == body["timeOutSeconds"].n
  {
    TimeoutInRange(body);
    Fields(
      OneOf(Field(body, "protocol"), Protocols),
      NonBlank(Field(body, "url")),
      OneOf(Field(body, "method"), Methods),
      ArrayOf(Field(body, "successCodes")),
      WholeIn(Field(body, "timeOutSeconds"), 0, MaxTimeout))
  }

  /** The validated timeout is truthy: present and not 0. */
  predicate TimeoutGiven(f: Fields)
  {
    f.timeOutSeconds.Some? && f.timeOutSeconds.value != 0
  }

  /** Every field is truthy, as create demands. Validated strings are
      never empty and arrays are always truthy; only the timeout can be a
      falsy value (0). */
  predicate Complete(f: Fields)
  {
    f.protocol.Some? && f.url.Some? && f.httpMethod.Some? && f.successCodes.Some? && TimeoutGiven(f)
  }

  /** Some field is truthy, as update demands. */
  predicate AnyGiven(f: Fields)
  {
    f.protocol.Some? || f.url.Some? || f.httpMethod.Some? || f.successCodes.Some? || TimeoutGiven(f)
  }

  /** A body create accepts, stated directly on the JSON: protocol `http` or
      `https`, a non-blank url, an upper-case method of the four, an array
      of success codes and a whole timeout from 1 to 5. A timeout of 0
      passes the range test but not the truthiness test. */
  lemma CompleteIff(body: Body)
    ensures Complete(Validate(body)) <==>
      && Field(body, "protocol") in {Some(Str("http")), Some(Str("https"))}
      && "url" in body && body["url"].Str? && !IsBlank(body["url"].s)
      && Field(body, "method") in {Some(Str("GET")), Some(Str("POST")), Some(Str("PUT")), Some(Str("DELETE"))}
      && "successCodes" in body && body["successCodes"].Arr?
      && Field(body, "timeOutSeconds") in {Some(Num(1.0)), Some(Num(2.0)), Some(Num(3.0)), Some(Num(4.0)), Some(Num(5.0))}
  {
    var f := Validate(body);
    if f.timeOutSeconds.Some? {
      assert f.timeOutSeconds.value != 0 <==> body["timeOutSeconds"].n != 0.0;
    }
  }

  /** The outcome of the authorisation chain of create: the token record
      names the owner, the owner's record exists, and the token verifies
      for the owner. */
  datatype Authorisation = Authorised(email: string, owner: User) | Denied(msg: string)

  function Authorise(s: Store, now: int, o: Oracle, key: string): (a: Authorisation)
    ensures a.Authorised? <==>
      && !o.Fails(Kv.Tokens, Kv.ReadOp) && key in s.tokens
      && !o.Fails(Kv.Users, Kv.ReadOp) && s.tokens[key].email in s.users
      && now < s.tokens[key].expires
    ensures a.Authorised? ==> a.email == s.tokens[key].email && a.owner == s.users[a.email]
  {
    match Kv.Read(s.tokens, key, o.Fails(Kv.Tokens, Kv.ReadOp))
    case None => Denied("Invalid token or authentication failed")
    case Some(t) =>
      match Kv.Read(s.users, t.email, o.Fails(Kv.Users, Kv.ReadOp))
      case None => Denied("User not found")
      case Some(u) =>
        if Tokens.Verify(s, now, o, key, t.email) then Authorised(t.email, u)
        else Denied("Invalid token or authentication failed")
  }

  /** The check create stores for a complete body. */
  function NewCheck(id: string, email: string, f: Fields): (c: Check)
    requires Complete(f)
    ensures c.id == id && c.userEmail == email
    ensures Some(c.protocol) == f.protocol && Some(c.url) == f.url && Some(c.httpMethod) == f.httpMethod
    ensures Some(c.successCodes) == f.successCodes && Some(c.timeOutSeconds) == f.timeOutSeconds
  {
    Check(id, email, f.protocol.value, f.url.value, f.httpMethod.value, f.successCodes.value, f.timeOutSeconds.value)
  }

  /** `_checks.post`. */
  function Create(s: Store, now: int, o: Oracle, req: Request): (r: Reply)
    ensures r.status in {200, 400, 401, 403, 500}
    ensures r.store.tokens == s.tokens
    ensures r.status in {400, 401, 403} ==> r.store == s
    ensures r.status == 400 <==> !Complete(Validate(req.body))
    ensures r.status == 403 <==> Complete(Validate(req.body)) && Authorise(s, now, o, TokenKey(req)).Denied?
    ensures var a := Authorise(s, now, o, TokenKey(req));
      r.status == 401 <==> Complete(Validate(req.body)) && a.Authorised? && |ChecksOf(a.owner)| >= MaxChecks
    ensures var a := Authorise(s, now, o, TokenKey(req));
      r.status == 200 <==>
        && Complete(Validate(req.body)) && a.Authorised? && |ChecksOf(a.owner)| < MaxChecks
        && !o.Fails(Kv.Checks, Kv.CreateOp) && o.newId(IdLength) !in s.checks
        && !o.Fails(Kv.Users, Kv.UpdateOp)
    ensures r.status == 200 ==>
      var a := Authorise(s, now, o, TokenKey(req));
      var c := NewCheck(o.newId(IdLength), a.email, Validate(req.body));
      && r.payload == CheckData(c)
      && r.store.checks == s.checks[c.id := c]
      && r.store.users == s.users[a.email := a.owner.(checks := Some(ChecksOf(a.owner) + [c.id]))]
      && |ChecksOf(r.store.users[a.email])| <= MaxChecks
    ensures var a := Authorise(s, now, o, TokenKey(req));
      r.status == 500 <==>
        && Complete(Validate(req.body)) && a.Authorised? && |ChecksOf(a.owner)| < MaxChecks
        && (|| o.Fails(Kv.Checks, Kv.CreateOp) || o.newId(IdLength) in s.checks
            || o.Fails(Kv.Users, Kv.UpdateOp))
    ensures r.status == 500 ==> r.store.users == s.users
    ensures r.status == 500 && (o.Fails(Kv.Checks, Kv.CreateOp) || o.newId(IdLength) in s.checks) ==> r.store == s
    ensures var a := Authorise(s, now, o, TokenKey(req));
      r.status == 500 && !o.Fails(Kv.Checks, Kv.CreateOp) && o.newId(IdLength) !in s.checks ==>
        r.store.checks == s.checks[o.newId(IdLength) := NewCheck(o.newId(IdLength), a.email, Validate(req.body))]
  {
    var f := Validate(req.body);
    if !Complete(f) then
      Reply(s, 400, Message("Invalid request"))
    else
      match Authorise(s, now, o, TokenKey(req))
      case Denied(msg) => Reply(s, 403, Message(msg))
      case Authorised(email, u) =>
        var list := ChecksOf(u);
        if |list| < MaxChecks then
          var c := NewCheck(o.newId(IdLength), email, f);
          match Kv.Create(s.checks, c.id, c, o.Fails(Kv.Checks, Kv.CreateOp))
          case None => Reply(s, 500, Message("Failed to create check"))
          case Some(checks) =>
            var s1 := s.(checks := checks);
            match Kv.Update(s1.users, email, u.(checks := Some(list + [c.id])), o.Fails(Kv.Users, Kv.UpdateOp))
            case None => Reply(s1, 500, Message("Failed to update user check"))
            case Some(users) => Reply(s1.(users := users), 200, CheckData(c))
        else
          Reply(s, 401, LimitError("User has already reached max check limit"))
  }

  /** `_checks.get`: the stored record, for a token of its owner. */
  function Get(s: Store, now: int, o: Oracle, req: Request): (r: Reply)
    ensures r.store == s
    ensures r.status in {200, 400, 403, 404}
    ensures r.status == 400 <==> NonBlank(QueryField(req, "id")).None?
    ensures var id := NonBlank(QueryField(req, "id"));
      r.status == 404 <==> id.Some? && (o.Fails(Kv.Checks, Kv.ReadOp) || id.value !in s.checks)
    ensures var id := NonBlank(QueryField(req, "id"));
      r.status == 200 <==>
        && id.Some? && !o.Fails(Kv.Checks, Kv.ReadOp) && id.value in s.checks
        && Tokens.Verify(s, now, o, TokenKey(req), s.checks[id.value].userEmail)
    ensures r.status == 200 ==> r.payload == CheckData(s.checks[req.query["id"]])
  {
    match NonBlank(QueryField(req, "id"))
    case None => Reply(s, 400, Message("Invalid request"))
    case Some(id) =>
      match Kv.Read(s.checks, id, o.Fails(Kv.Checks, Kv.ReadOp))
      case None => Reply(s, 404, Message("Check not found"))
      case Some(c) =>
        if Tokens.Verify(s, now, o, TokenKey(req), c.userEmail) then Reply(s, 200, CheckData(c))
        else Reply(s, 403, Message("Invalid token or authentication failed"))
  }

  /** The stored check with every truthy validated field laid over it. The
      id and the owner never change, and a timeout of 0 is never written. */
  function MergeCheck(c: Check, f: Fields): (m: Check)
    ensures m.id == c.id && m.userEmail == c.userEmail
    ensures m.protocol == (if f.protocol.Some? then f.protocol.value else c.protocol)
    ensures m.url == (if f.url.Some? then f.url.value else c.url)
    ensures m.httpMethod == (if f.httpMethod.Some? then f.httpMethod.value else c.httpMethod)
    ensures m.successCodes == (if f.successCodes.Some? then f.successCodes.value else c.successCodes)
    ensures m.timeOutSeconds == (if TimeoutGiven(f) then f.timeOutSeconds.value else c.timeOutSeconds)
  {
    c.(protocol := f.protocol.GetOr(c.protocol),
       url := f.url.GetOr(c.url),
       httpMethod := f.httpMethod.GetOr(c.httpMethod),
       successCodes := f.successCodes.GetOr(c.successCodes),
       timeOutSeconds := if TimeoutGiven(f) then f.timeOutSeconds.value else c.timeOutSeconds)
  }

  /** `_checks.put`: partial update by the body's `id`. */
  function Update(s: Store, now: int, o: Oracle, req: Request): (r: Reply)
    ensures r.status in {200, 400, 403, 404, 500}
    ensures r.store.tokens == s.tokens && r.store.users == s.users
    ensures r.status != 200 ==> r.store == s
    ensures r.status == 400 <==> NonBlank(Field(req.body, "id")).None? || !AnyGiven(Validate(req.body))
    ensures var id := NonBlank(Field(req.body, "id"));
      r.status == 200 <==>
        && id.Some? && AnyGiven(Validate(req.body))
        && !o.Fails(Kv.Checks, Kv.ReadOp) && id.value in s.checks
        && Tokens.Verify(s, now, o, TokenKey(req), s.checks[id.value].userEmail)
        && !o.Fails(Kv.Checks, Kv.UpdateOp)
    ensures var id := NonBlank(Field(req.body, "id"));
      r.status == 404 <==>
        && id.Some? && AnyGiven(Validate(req.body))
        && (o.Fails(Kv.Checks, Kv.ReadOp) || id.value !in s.checks)
    ensures var id := NonBlank(Field(req.body, "id"));
      r.status == 403 <==>
        && id.Some? && AnyGiven(Validate(req.body))
        && !o.Fails(Kv.Checks, Kv.ReadOp) && id.value in s.checks
        && !Tokens.Verify(s, now, o, TokenKey(req), s.checks[id.value].userEmail)
    ensures var id := NonBlank(Field(req.body, "id"));
      r.status == 500 <==>
        && id.Some? && AnyGiven(Validate(req.body))
        && !o.Fails(Kv.Checks, Kv.ReadOp) && id.value in s.checks
        && Tokens.Verify(s, now, o, TokenKey(req), s.checks[id.value].userEmail)
        && o.Fails(Kv.Checks, Kv.UpdateOp)
    ensures r.status == 200 ==>
      var id := req.body["id"].s;
      var m := MergeCheck(s.checks[id], Validate(req.body));
      && r.store.checks == s.checks[id := m]
      && r.payload == CheckData(m)
  {
    var f := Validate(req.body);
    match NonBlank(Field(req.body, "id"))
    case None => Reply(s, 400, Message("Invalid request"))
    case Some(id) =>
      if !AnyGiven(f) then
        Reply(s, 400, Message("Invalid update request"))
      else
        match Kv.Read(s.checks, id, o.Fails(Kv.Checks, Kv.ReadOp))
        case None => Reply(s, 404, Message("Check not found"))
        case Some(c) =>
          var m := MergeCheck(c, f);
          if Tokens.Verify(s, now, o, TokenKey(req), m.userEmail) then
            match Kv.Update(s.checks, id, m, o.Fails(Kv.Checks, Kv.UpdateOp))
            case Some(checks) => Reply(s.(checks := checks), 200, CheckData(m))
            case None => Reply(s, 500, Message("Failed to update check"))
          else
            Reply(s, 403, Message("Invalid token or authentication failed"))
  }

  /** `checks.filter((checkId) => checkId !== x)`. */
  function Without(xs: seq<string>, x: string): (r: seq<string>)
    ensures |r| <= |xs|
    ensures x !in r
    ensures forall y | y in xs && y != x :: y in r
    ensures forall y | y in r :: y in xs
    ensures x !in xs ==> r == xs
  {
    if xs == [] then []
    else if xs[0] == x then Without(xs[1..], x)
    else [xs[0]] + Without(xs[1..], x)
  }

  /** Filtering distributes over concatenation, so the ids that remain
      keep their order. */
  lemma {:induction false} WithoutConcat(a: seq<string>, b: seq<string>, x: string)
    ensures Without(a + b, x) == Without(a, x) + Without(b, x)
  {
    if a == [] {
      assert a + b == b;
    } else {
      assert (a + b)[0] == a[0];
      assert (a + b)[1..] == a[1..] + b;
      WithoutConcat(a[1..], b, x);
    }
  }

  /** Filtering out an id appended to a list that did not hold it gives the
      list back: create's append and delete's filter are inverse. */
  lemma WithoutAppended(xs: seq<string>, x: string)
    requires x !in xs
    ensures Without(xs + [x], x) == xs
  {
    WithoutConcat(xs, [x], x);
  }

  /** `_checks.delete`: remove the check, then filter its id out of the
      owner's list. A failure after the removal leaves the list stale. */
  function Delete(s: Store, now: int, o: Oracle, req: Request): (r: Reply)
    ensures r.status in {200, 400, 403, 404, 500}
    ensures r.store.tokens == s.tokens
    ensures r.status in {400, 403, 404} ==> r.store == s
    ensures r.status == 400 <==> NonBlank(QueryField(req, "id")).None?
    ensures var id := NonBlank(QueryField(req, "id"));
      r.status == 404 <==> id.Some? && (o.Fails(Kv.Checks, Kv.ReadOp) || id.value !in s.checks)
    ensures var id := NonBlank(QueryField(req, "id"));
      r.status == 403 <==>
        && id.Some? && !o.Fails(Kv.Checks, Kv.ReadOp) && id.value in s.checks
        && !Tokens.Verify(s, now, o, TokenKey(req), s.checks[id.value].userEmail)
    ensures var id := NonBlank(QueryField(req, "id"));
      r.status == 200 <==>
        && id.Some? && !o.Fails(Kv.Checks, Kv.ReadOp) && id.value in s.checks
        && Tokens.Verify(s, now, o, TokenKey(req), s.checks[id.value].userEmail)
        && !o.Fails(Kv.Checks, Kv.DeleteOp)
        && !o.Fails(Kv.Users, Kv.ReadOp) && s.checks[id.value].userEmail in s.users
        && !o.Fails(Kv.Users, Kv.UpdateOp)
    ensures r.status == 200 ==>
      var id := req.query["id"];
      var e := s.checks[id].userEmail;
      && r.store.checks == s.checks - {id}
      && r.store.users == s.users[e := s.users[e].(checks := Some(Without(ChecksOf(s.users[e]), id)))]
    ensures r.status == 500 ==>
      && r.store.users == s.users
      && r.store.checks == (if o.Fails(Kv.Checks, Kv.DeleteOp) then s.checks else s.checks - {req.query["id"]})
  {
    match NonBlank(QueryField(req, "id"))
    case None => Reply(s, 400, Message("Invalid request"))
    case Some(id) =>
      match Kv.Read(s.checks, id, o.Fails(Kv.Checks, Kv.ReadOp))
      case None => Reply(s, 404, Message("Check not found"))
      case Some(c) =>
        if Tokens.Verify(s, now, o, TokenKey(req), c.userEmail) then
          match Kv.Delete(s.checks, id, o.Fails(Kv.Checks, Kv.DeleteOp))
          case None => Reply(s, 500, Message("Failed to delete check"))
          case Some(checks) =>
            var s1 := s.(checks := checks);
            match Kv.Read(s1.users, c.userEmail, o.Fails(Kv.Users, Kv.ReadOp))
            case None => Reply(s1, 500, Message("Failed to delete check from user object"))
            case Some(u) =>
              var u' := u.(checks := Some(Without(ChecksOf(u), id)));
              match Kv.Update(s1.users, c.userEmail, u', o.Fails(Kv.Users, Kv.UpdateOp))
              case None => Reply(s1, 500, Message("Failed to delete check from user object in server"))
              case Some(users) => Reply(s1.(users := users), 200, Message("Check deleted successfully"))
        else
          Reply(s, 403, Message("Invalid token or authentication failed"))
  }

  /** `checkHandler`: lowercase the method, answer 405 outside the four
      accepted ones, otherwise run the matching operation. */
  function Handle(s: Store, now: int, o: Oracle, req: Request): (r: Reply)
    ensures r.store.tokens == s.tokens
    ensures r.status == 405 <==> !Accepted(req.httpMethod)
    ensures r.status == 405 ==> r.store == s && r.payload == MethodNotAllowed
    ensures Lower(req.httpMethod) == "post" ==> r == Create(s, now, o, req)
    ensures Lower(req.httpMethod) == "get" ==> r == Get(s, now, o, req)
    ensures Lower(req.httpMethod) == "put" ==> r == Update(s, now, o, req)
    ensures Lower(req.httpMethod) == "delete" ==> r == Delete(s, now, o, req)
  {
    var m := Lower(req.httpMethod);
    if m == "post" then Create(s, now, o, req)
    else if m == "get" then Get(s, now, o, req)
    else if m == "put" then Update(s, now, o, req)
    else if m == "delete" then Delete(s, now, o, req)
    else Reply(s, 405, MethodNotAllowed)
  }

  /** A generated check id passes the non-blank test of fetch and delete. */
  lemma GeneratedIdAccepted(id: string)
    requires IdShape(id, IdLength)
    ensures NonBlank(Some(Str(id))) == Some(id)
  {
    assert !IsSpace(id[0]);
  }

  /** The store right after a successful create, in terms of the owner. */
  function Created(s: Store, email: string, c: Check): Store
    requires email in s.users
  {
    var u := s.users[email];
    Store(s.users[email := u.(checks := Some(ChecksOf(u) + [c.id]))], s.tokens, s.checks[c.id := c])
  }

  /** The owner's token, at the same instant, fetches the check it just
      created, unchanged. */
  lemma CreateThenGet(s: Store, now: int, o: Oracle, req: Request, o2: Oracle, req2: Request)
    requires Create(s, now, o, req).status == 200
    requires IdShape(o.newId(IdLength), IdLength)
    requires "id" in req2.query && req2.query["id"] == o.newId(IdLength)
    requires TokenKey(req2) == TokenKey(req)
    requires Reliable(o2)
    ensures var r := Create(s, now, o, req);
      Get(r.store, now, o2, req2) == Reply(r.store, 200, r.payload)
  {
    var a := Authorise(s, now, o, TokenKey(req));
    var c := NewCheck(o.newId(IdLength), a.email, Validate(req.body));
    assert Create(s, now, o, req).store == Created(s, a.email, c);
    GeneratedIdAccepted(c.id);
    GetAfterCreate(s, now, a.email, c, o2, req2);
  }

  lemma GetAfterCreate(s: Store, now: int, email: string, c: Check, o2: Oracle, req2: Request)
    requires email in s.users && c.userEmail == email
    requires TokenKey(req2) in s.tokens && s.tokens[TokenKey(req2)].email == email
    requires now < s.tokens[TokenKey(req2)].expires
    requires NonBlank(QueryField(req2, "id")) == Some(c.id)
    requires Reliable(o2)
    ensures Get(Created(s, email, c), now, o2, req2) == Reply(Created(s, email, c), 200, CheckData(c))
  {
  }

  /** Creating a check and deleting it again with the same token restores
      the store, except that an owner who had no `checks` field now has an
      empty list. */
  lemma CreateThenDelete(s: Store, now: int, o: Oracle, req: Request, o2: Oracle, req2: Request)
    requires Create(s, now, o, req).status == 200
    requires IdShape(o.newId(IdLength), IdLength)
    requires "id" in req2.query && req2.query["id"] == o.newId(IdLength)
    requires TokenKey(req2) == TokenKey(req)
    requires Reliable(o2)
    requires var e := s.tokens[TokenKey(req)].email;
      e in s.users && o.newId(IdLength) !in ChecksOf(s.users[e])
    ensures var e := s.tokens[TokenKey(req)].email;
      Delete(Create(s, now, o, req).store, now, o2, req2).store
        == s.(users := s.users[e := s.users[e].(checks := Some(ChecksOf(s.users[e])))])
  {
    var a := Authorise(s, now, o, TokenKey(req));
    var c := NewCheck(o.newId(IdLength), a.email, Validate(req.body));
    assert Create(s, now, o, req).store == Created(s, a.email, c);
    GeneratedIdAccepted(c.id);
    DeleteAfterCreate(s, now, a.email, c, o2, req2);
  }

  lemma DeleteAfterCreate(s: Store, now: int, email: string, c: Check, o2: Oracle, req2: Request)
    requires email in s.users && c.userEmail == email
    requires c.id !in s.checks && c.id !in ChecksOf(s.users[email])
    requires TokenKey(req2) in s.tokens && s.tokens[TokenKey(req2)].email == email
    requires now < s.tokens[TokenKey(req2)].expires
    requires NonBlank(QueryField(req2, "id")) == Some(c.id)
    requires Reliable(o2)
    ensures Delete(Created(s, email, c), now, o2, req2).store
            == s.(users := s.users[email := s.users[email].(checks := Some(ChecksOf(s.users[email])))])
  {
    var u := s.users[email];
    var s1 := Created(s, email, c);
    assert req2.query["id"] == c.id;
    WithoutAppended(ChecksOf(u), c.id);
    assert s1.checks - {c.id} == s.checks;
    assert s1.users[email := s1.users[email].(checks := Some(Without(ChecksOf(s1.users[email]), c.id)))]
        == s.users[email := u.(checks := Some(ChecksOf(u)))];
  }

  /** Once deleted, a check is not found any more. */
  lemma DeleteThenGet(s: Store, now: int, o: Oracle, req: Request, o2: Oracle, now2: int, req2: Request)
    requires Delete(s, now, o, req).status == 200
    requires "id" in req2.query && req2.query["id"] == req.query["id"]
    ensures Get(Delete(s, now, o, req).store, now2, o2, req2).status == 404
  {
  }
}

=== FILE: invariants.dfy ===
/** Facts about the whole store that the services keep across requests:
    no user lists more checks than the quota allows, every stored check
    carries the shape create validated, and every id on a user's list names
    a stored check of that user. The first two hold whatever the storage
    does; the third holds as long as no storage operation fails, because
    delete removes the check before it edits the owner's list. */
module Invariants {
  import opened Wrappers
  import opened Text
  import opened Json
  import opened Records
  import opened Api
  import Kv
  import Users
  import Checks
  import opened Routing

  /** No user lists more than `MaxChecks` checks. */
  predicate QuotaRespected(s: Store)
  {
    forall e | e in s.users :: |ChecksOf(s.users[e])| <= Checks.MaxChecks
  }

  /** The shape create demands of a monitor definition. */
  predicate WellFormedCheck(c: Check)
  {
    && c.protocol in Checks.Protocols
    && !IsBlank(c.url)
    && c.httpMethod in Checks.Methods
    && 1 <= c.timeOutSeconds <= Checks.MaxTimeout
  }

  /** Every stored check is filed under its own id and is well formed. */
  predicate ChecksWellFormed(s: Store)
  {
    forall k | k in s.checks :: s.checks[k].id == k && WellFormedCheck(s.checks[k])
  }

  /** Every id on a user's list names a stored check owned by that user. */
  predicate ListsConsistent(s: Store)
  {
    forall e, id | e in s.users && id in ChecksOf(s.users[e]) :: id in s.checks && s.checks[id].userEmail == e
  }

  predicate Safe(s: Store)
  {
    QuotaRespected(s) && ChecksWellFormed(s)
  }

  predicate Consistent(s: Store)
  {
    Safe(s) && ListsConsistent(s)
  }

  /** The fresh store, with no record at all, satisfies every invariant. */
  lemma EmptyStoreConsistent()
    ensures Consistent(Store(map[], map[], map[]))
  {
  }

  // ---------------------------------------------------------------------
  // Validation produces well-formed fields

  /** Whatever validation lets through has the shape of a well-formed
      check: one of the two protocols, a non-blank url, one of the four
      upper-case methods, and a truthy timeout from 1 to 5. */
  lemma ValidatedFieldsWellFormed(body: Body)
    ensures var f := Checks.Validate(body);
      && (f.protocol.Some? ==> f.protocol.value in Checks.Protocols)
      && (f.url.Some? ==> !IsBlank(f.url.value))
      && (f.httpMethod.Some? ==> f.httpMethod.value in Checks.Methods)
      && (Checks.TimeoutGiven(f) ==> 1 <= f.timeOutSeconds.value <= Checks.MaxTimeout)
  {
    var f := Checks.Validate(body);
    if Checks.TimeoutGiven(f) {
      var n := body["timeOutSeconds"].n;
      assert Checks.SmallWhole(n) && f.timeOutSeconds.value as real == n;
    }
  }

  lemma NewCheckWellFormed(id: string, email: string, body: Body)
    requires Checks.Complete(Checks.Validate(body))
    ensures WellFormedCheck(Checks.NewCheck(id, email, Checks.Validate(body)))
  {
    ValidatedFieldsWellFormed(body);
  }

  /** A partial update of a well-formed check is well formed: a timeout of
      0 is never written over the stored one. */
  lemma MergeKeepsWellFormed(c: Check, body: Body)
    requires WellFormedCheck(c)
    ensures WellFormedCheck(Checks.MergeCheck(c, Checks.Validate(body)))
  {
    ValidatedFieldsWellFormed(body);
  }

  // ---------------------------------------------------------------------
  // The store changes the check service makes

  /** A new check, listed by its owner below the quota (create's success). */
  lemma AddListedCheck(s: Store, email: string, c: Check)
    requires email in s.users && c.userEmail == email && c.id !in s.checks
    requires WellFormedCheck(c) && |ChecksOf(s.users[email])| < Checks.MaxChecks
    ensures Safe(s) ==> Safe(Checks.Created(s, email, c))
    ensures ListsConsistent(s) ==> ListsConsistent(Checks.Created(s, email, c))
  {
    var s' := Checks.Created(s, email, c);
    if ListsConsistent(s) {
      forall e, id | e in s'.users && id in ChecksOf(s'.users[e])
        ensures id in s'.checks && s'.checks[id].userEmail == e
      {
        if e == email {
          assert ChecksOf(s'.users[e]) == ChecksOf(s.users[e]) + [c.id];
          if id != c.id {
            assert id in ChecksOf(s.users[e]);
          }
        } else {
          assert ChecksOf(s'.users[e]) == ChecksOf(s.users[e]);
        }
      }
    }
  }

  /** A new check nobody lists (create failing after the check was written). */
  lemma AddUnlistedCheck(s: Store, c: Check)
    requires c.id !in s.checks && WellFormedCheck(c)
    ensures Safe(s) ==> Safe(s.(checks := s.checks[c.id := c]))
    ensures ListsConsistent(s) ==> ListsConsistent(s.(checks := s.checks[c.id := c]))
  {
  }

  /** A check rewritten in place with its id and owner kept (update). */
  lemma ReplaceCheck(s: Store, id: string, m: Check)
    requires id in s.checks && m.id == s.checks[id].id && m.userEmail == s.checks[id].userEmail
    ensures Safe(s) && WellFormedCheck(m) ==> Safe(s.(checks := s.checks[id := m]))
    ensures ListsConsistent(s) ==> ListsConsistent(s.(checks := s.checks[id := m]))
  {
  }

  /** The store after delete's success: the check gone and its id filtered
      out of the owner's list. */
  function Dropped(s: Store, id: string): Store
    requires id in s.checks && s.checks[id].userEmail in s.users
  {
    var e := s.checks[id].userEmail;
    s.(users := s.users[e := s.users[e].(checks := Some(Checks.Without(ChecksOf(s.users[e]), id)))],
       checks := s.checks - {id})
  }

  lemma RemoveListedCheck(s: Store, id: string)
    requires id in s.checks && s.checks[id].userEmail in s.users
    ensures Safe(s) ==> Safe(Dropped(s, id))
    ensures ListsConsistent(s) ==> ListsConsistent(Dropped(s, id))
  {
    var owner := s.checks[id].userEmail;
    var s' := Dropped(s, id);
    if ListsConsistent(s) {
      forall e, x | e in s'.users && x in ChecksOf(s'.users[e])
        ensures x in s'.checks && s'.checks[x].userEmail == e
      {
        if e == owner {
          assert x in ChecksOf(s.users[e]) && x != id;
        } else {
          assert ChecksOf(s'.users[e]) == ChecksOf(s.users[e]);
          assert s.checks[x].userEmail == e;
        }
      }
    }
  }

  /** The check removed but no list edited (delete failing half-way). From
      consistent lists, the lists stay consistent exactly when the check's
      owner is not a user listing it. */
  lemma RemoveCheck(s: Store, id: string)
    ensures Safe(s) ==> Safe(s.(checks := s.checks - {id}))
    ensures ListsConsistent(s) && id in s.checks ==>
      var e := s.checks[id].userEmail;
      (ListsConsistent(s.(checks := s.checks - {id})) <==> !(e in s.users && id in ChecksOf(s.users[e])))
  {
    var s' := s.(checks := s.checks - {id});
    if ListsConsistent(s) && id in s.checks {
      var e := s.checks[id].userEmail;
      if e in s.users && id in ChecksOf(s.users[e]) {
        assert id !in s'.checks;
      } else {
        forall u, x | u in s'.users && x in ChecksOf(s'.users[u])
          ensures x in s'.checks && s'.checks[x].userEmail == u
        {
          assert s.checks[x].userEmail == u;
        }
      }
    }
  }

  // ---------------------------------------------------------------------
  // The check service

  lemma CreateKeeps(s: Store, now: int, o: Oracle, req: Request)
    ensures var s' := Checks.Create(s, now, o, req).store;
      (Safe(s) ==> Safe(s')) && (ListsConsistent(s) ==> ListsConsistent(s'))
  {
    var r := Checks.Create(s, now, o, req);
    var f := Checks.Validate(req.body);
    var a := Checks.Authorise(s, now, o, TokenKey(req));
    if r.status == 200 {
      var c := Checks.NewCheck(o.newId(Checks.IdLength), a.email, f);
      NewCheckWellFormed(c.id, a.email, req.body);
      assert r.store == Checks.Created(s, a.email, c);
      AddListedCheck(s, a.email, c);
    } else if r.status == 500 && !o.Fails(Kv.Checks, Kv.CreateOp) && o.newId(Checks.IdLength) !in s.checks {
      var c := Checks.NewCheck(o.newId(Checks.IdLength), a.email, f);
      NewCheckWellFormed(c.id, a.email, req.body);
      assert r.store == s.(checks := s.checks[c.id := c]);
      AddUnlistedCheck(s, c);
    } else {
      assert r.store == s;
    }
  }

  lemma UpdateKeeps(s: Store, now: int, o: Oracle, req: Request)
    ensures var s' := Checks.Update(s, now, o, req).store;
      (Safe(s) ==> Safe(s')) && (ListsConsistent(s) ==> ListsConsistent(s'))
  {
    var r := Checks.Update(s, now, o, req);
    if r.status == 200 {
      var id := req.body["id"].s;
      var m := Checks.MergeCheck(s.checks[id], Checks.Validate(req.body));
      assert r.store == s.(checks := s.checks[id := m]);
      if Safe(s) {
        MergeKeepsWellFormed(s.checks[id], req.body);
      }
      ReplaceCheck(s, id, m);
    } else {
      assert r.store == s;
    }
  }

  lemma DeleteKeeps(s: Store, now: int, o: Oracle, req: Request)
    ensures var s' := Checks.Delete(s, now, o, req).store;
      && (Safe(s) ==> Safe(s'))
      && (ListsConsistent(s) && Reliable(o) ==> ListsConsistent(s'))
  {
    var r := Checks.Delete(s, now, o, req);
    if r.status == 200 {
      var id := req.query["id"];
      assert r.store == Dropped(s, id);
      RemoveListedCheck(s, id);
    } else if r.status == 500 && !o.Fails(Kv.Checks, Kv.DeleteOp) {
      var id := req.query["id"];
      assert r.store == s.(checks := s.checks - {id});
      RemoveCheck(s, id);
    } else {
      assert r.store == s;
    }
  }

  /** Half of a delete: the check removed, then the owner's record failing
      to update. The owner still lists an id that names nothing. */
  lemma PartialDeleteLeavesStaleList(s: Store, now: int, o: Oracle, req: Request)
    requires Checks.Delete(s, now, o, req).status == 500
    requires !o.Fails(Kv.Checks, Kv.DeleteOp)
    requires "id" in req.query
    requires var id := req.query["id"];
      id in s.checks && s.checks[id].userEmail in s.users && id in ChecksOf(s.users[s.checks[id].userEmail])
    ensures var r := Checks.Delete(s, now, o, req);
      && r.store.checks == s.checks - {req.query["id"]}
      && r.store.users == s.users
      && !ListsConsistent(r.store)
  {
    var id := req.query["id"];
    var r := Checks.Delete(s, now, o, req);
    var e := s.checks[id].userEmail;
    assert e in r.store.users && id in ChecksOf(r.store.users[e]) && id !in r.store.checks;
  }

  lemma CheckServiceKeeps(s: Store, now: int, o: Oracle, req: Request)
    ensures var s' := Checks.Handle(s, now, o, req).store;
      && (Safe(s) ==> Safe(s'))
      && (ListsConsistent(s) && Reliable(o) ==> ListsConsistent(s'))
  {
    var m := Lower(req.httpMethod);
    if m == "post" {
      CreateKeeps(s, now, o, req);
    } else if m == "put" {
      UpdateKeeps(s, now, o, req);
    } else if m == "delete" {
      DeleteKeeps(s, now, o, req);
    }
  }

  // ---------------------------------------------------------------------
  // The user and token services

  /** No user operation touches a check list: a kept user keeps their list,
      a new user has none, and the checks stay as they are. */
  lemma UserServiceKeepsLists(s: Store, hash: string -> string, o: Oracle, req: Request)
    ensures var s' := Users.Handle(s, hash, o, req).store;
      && s'.checks == s.checks
      && forall e | e in s'.users :: ChecksOf(s'.users[e]) == (if e in s.users then ChecksOf(s.users[e]) else [])
  {
    var m := Lower(req.httpMethod);
    var r := Users.Handle(s, hash, o, req);
    if m == "post" && r.status == 200 {
      var u := Users.NewUser(hash, req.body).value;
      assert r.store.users == s.users[u.email := u];
    } else if m == "put" && r.status == 200 {
      var key := Users.UpdateKey(req.body);
      assert key in s.users && r.store.users.Keys == s.users.Keys;
      assert r.store.users[key].checks == s.users[key].checks;
    }
  }

  /** A change to the users alone that keeps every surviving list and
      gives new users none keeps every invariant. */
  lemma ListsUntouched(s: Store, s': Store)
    requires s'.checks == s.checks
    requires forall e | e in s'.users :: ChecksOf(s'.users[e]) == (if e in s.users then ChecksOf(s.users[e]) else [])
    ensures Safe(s) ==> Safe(s')
    ensures ListsConsistent(s) ==> ListsConsistent(s')
  {
  }

  /** The invariants read only users and checks. */
  lemma SameRecords(s: Store, s': Store)
    requires s'.users == s.users && s'.checks == s.checks
    ensures Safe(s) ==> Safe(s')
    ensures ListsConsistent(s) ==> ListsConsistent(s')
  {
  }

  lemma UserServiceKeeps(s: Store, hash: string -> string, o: Oracle, req: Request)
    ensures var s' := Users.Handle(s, hash, o, req).store;
      (Safe(s) ==> Safe(s')) && (ListsConsistent(s) ==> ListsConsistent(s'))
  {
    UserServiceKeepsLists(s, hash, o, req);
    ListsUntouched(s, Users.Handle(s, hash, o, req).store);
  }

  // ---------------------------------------------------------------------
  // The dispatcher

  /** Whatever route and method a request names, and whatever the storage
      does, the quota and the shape of the stored checks survive it; with
      storage that does not fail, so do the owners' lists. */
  lemma DispatchKeeps(s: Store, now: int, hash: string -> string, o: Oracle, req: Request)
    ensures var s' := HandleReqRes(s, now, hash, o, req).store;
      && (Safe(s) ==> Safe(s'))
      && (ListsConsistent(s) && Reliable(o) ==> ListsConsistent(s'))
  {
    var m := Lower(req.httpMethod);
    var x := HandleReqRes(s, now, hash, o, req);
    if m == "options" {
      assert x.store == s;
    } else {
      var props := req.(httpMethod := m);
      var svc := Select(TrimSlashes(req.path));
      var r := Invoke(svc, s, now, hash, o, props);
      assert x.store == r.store;
      match svc
      case UserService =>
        assert r == Users.Handle(s, hash, o, props);
        UserServiceKeeps(s, hash, o, props);
      case CheckService =>
        assert r == Checks.Handle(s, now, o, props);
        CheckServiceKeeps(s, now, o, props);
      case _ =>
        SameRecords(s, r.store);
    }
  }

  /** One request as the server receives it, with the clock reading and
      the storage behaviour it meets. */
  datatype Step = Step(now: int, req: Request, oracle: Oracle)

  /** The store after serving the requests one after another. */
  function Replay(s: Store, hash: string -> string, steps: seq<Step>): Store
    decreases |steps|
  {
    if steps == [] then s
    else Replay(HandleReqRes(s, steps[0].now, hash, steps[0].oracle, steps[0].req).store, hash, steps[1..])
  }

  /** Any sequence of requests keeps the quota and the check shapes. */
  lemma {:induction false} ReplayKeepsSafe(s: Store, hash: string -> string, steps: seq<Step>)
    requires Safe(s)
    ensures Safe(Replay(s, hash, steps))
    decreases |steps|
  {
    if steps != [] {
      DispatchKeeps(s, steps[0].now, hash, steps[0].oracle, steps[0].req);
      ReplayKeepsSafe(HandleReqRes(s, steps[0].now, hash, steps[0].oracle, steps[0].req).store, hash, steps[1..]);
    }
  }

  /** Any sequence of requests served by storage that never fails keeps
      every invariant. */
  lemma {:induction false} ReplayKeepsConsistent(s: Store, hash: string -> string, steps: seq<Step>)
    requires Consistent(s)
    requires forall i | 0 <= i < |steps| :: Reliable(steps[i].oracle)
    ensures Consistent(Replay(s, hash, steps))
    decreases |steps|
  {
    if steps != [] {
      DispatchKeeps(s, steps[0].now, hash, steps[0].oracle, steps[0].req);
      assert forall i | 0 <= i < |steps[1..]| :: steps[1..][i] == steps[i + 1];
      ReplayKeepsConsistent(HandleReqRes(s, steps[0].now, hash, steps[0].oracle, steps[0].req).store, hash, steps[1..]);
    }
  }
}

=== FILE: json.dfy ===
/** Decoded JSON values of a request body, and the field validators every
    handler repeats: each turns a body field into its value or `false`
    (`None`), following the `typeof … ? … : false` idiom of the source. */
module Json {
  import opened Wrappers
  import opened Text

  /** A JSON value as `JSON.parse` produces it. Numbers are reals; the
      non-finite doubles JSON cannot express are left out. */
  datatype Value =
    | Null
    | Bool(b: bool)
    | Num(n: real)
    | Str(s: string)
    | Arr(items: seq<Value>)
    | Obj(members: map<string, Value>)

  /** A decoded request body; an absent key is JavaScript's `undefined`. */
  type Body = map<string, Value>

  function Field(body: Body, name: string): Option<Value>
  {
    if name in body then Some(body[name]) else None
  }

  /** `typeof v === "string" && v.trim().length > 0 ? v : false`. */
  function NonBlank(v: Option<Value>): (r: Option<string>)
    ensures r.Some? <==> v.Some? && v.value.Str? && !IsBlank(v.value.s)
    ensures r.Some? ==> r.value == v.value.s && |r.value| > 0
  {
    if v.Some? && v.value.Str? then
      TrimEmptyIffBlank(v.value.s);
      if |Trim(v.value.s)| > 0 then Some(v.value.s) else None
    else
      None
  }

  /** `typeof v === "string" && options.indexOf(v) > -1 ? v : false`: an
      exact, case-sensitive match against the list. */
  function OneOf(v: Option<Value>, options: seq<string>): (r: Option<string>)
    ensures r.Some? <==> v.Some? && v.value.Str? && v.value.s in options
    ensures r.Some? ==> r.value == v.value.s
  {
    if v.Some? && v.value.Str? && v.value.s in options then Some(v.value.s) else None
  }

  /** `typeof v === "object" && v instanceof Array ? v : false`. */
  function ArrayOf(v: Option<Value>): (r: Option<seq<Value>>)
    ensures r.Some? <==> v.Some? && v.value.Arr?
    ensures r.Some? ==> v.value == Arr(r.value)
  {
    if v.Some? && v.value.Arr? then Some(v.value.items) else None
  }

  /** `typeof v === "number" && v % 1 === 0 && v >= lo && v <= hi ? v : false`. */
  function WholeIn(v: Option<Value>, lo: int, hi: int): (r: Option<int>)
    ensures r.Some? <==> v.Some? && v.value.Num? && v.value.n == v.value.n.Floor as real && lo as real <= v.value.n <= hi as real
    ensures r.Some? ==> lo <= r.value <= hi && r.value as real == v.value.n
  {
    if v.Some? && v.value.Num? && v.value.n == v.value.n.Floor as real && lo as real <= v.value.n <= hi as real
    then Some(v.value.n.Floor)
    else None
  }

  /** `typeof v === "boolean" ? v : false`. */
  function BoolOr(v: Option<Value>): (r: bool)
    ensures r <==> v == Some(Bool(true))
  {
    v.Some? && v.value.Bool? && v.value.b
  }
}

=== FILE: kv.dfy ===
/** The file-per-record store as the services see it: one map per
    collection and four operations. Each operation may also fail for
    reasons outside the model (disk errors); `fails` is that oracle. */
module Kv {
  import opened Wrappers

  datatype Collection = Users | Tokens | Checks

  datatype Op = CreateOp | ReadOp | UpdateOp | DeleteOp

  /** An operation of the given kind on the given collection fails. */
  datatype Fault = Fault(collection: Collection, op: Op)

  /** Opening with flag "wx": succeeds only when no record has the key; the
      new map holds `v` at `key` and every other record unchanged. */
  function Create<V>(m: map<string, V>, key: string, v: V, fails: bool): (r: Option<map<string, V>>)
    ensures r.Some? <==> !fails && key !in m
    ensures r.Some? ==> r.value.Keys == m.Keys + {key} && r.value[key] == v
    ensures r.Some? ==> forall k | k in m :: r.value[k] == m[k]
  {
    if fails || key in m then None else Some(m[key := v])
  }

  /** Reading succeeds only when a record has the key, and yields it. */
  function Read<V>(m: map<string, V>, key: string, fails: bool): (r: Option<V>)
    ensures r.Some? <==> !fails && key in m
    ensures r.Some? ==> r.value == m[key]
  {
    if fails || key !in m then None else Some(m[key])
  }

  /** Opening with flag "r+" then rewriting: succeeds only when a record
      has the key; only that record changes. */
  function Update<V>(m: map<string, V>, key: string, v: V, fails: bool): (r: Option<map<string, V>>)
    ensures r.Some? <==> !fails && key in m
    ensures r.Some? ==> r.value.Keys == m.Keys && r.value[key] == v
    ensures r.Some? ==> forall k | k in m && k != key :: r.value[k] == m[k]
  {
    if fails || key !in m then None else Some(m[key := v])
  }

  /** Unlinking: succeeds only when a record has the key; exactly that key
      disappears. */
  function Delete<V>(m: map<string, V>, key: string, fails: bool): (r: Option<map<string, V>>)
    ensures r.Some? <==> !fails && key in m
    ensures r.Some? ==> r.value.Keys == m.Keys - {key}
    ensures r.Some? ==> forall k | k in r.value :: r.value[k] == m[k]
  {
    if fails || key !in m then None else Some(m - {key})
  }

  /** Creating a record and deleting it again leaves the collection as it
      was; reading right after creating yields the record. */
  lemma CreateDeleteRoundTrip<V>(m: map<string, V>, key: string, v: V)
    requires key !in m
    ensures Create(m, key, v, false).Some?
    ensures Read(Create(m, key, v, false).value, key, false) == Some(v)
    ensures Delete(Create(m, key, v, false).value, key, false) == Some(m)
  {
    var c := Create(m, key, v, false).value;
    assert c - {key} == m;
  }
}

=== FILE: records.dfy ===
/** The three record kinds the services keep, and the store holding one
    collection of each. Records are keyed by file name: users by email,
    tokens and checks by their random id. */
module Records {
  import opened Wrappers
  import Json

  /** A stored user. `password` holds the hash, never the clear text.
      `checks` is `None` when the stored JSON has no array there (a user
      who never created a check has no `checks` field at all). */
  datatype User = User(
    firstName: string,
    lastName: string,
    email: string,
    password: string,
    tos: bool,
    phone: string,
    checks: Option<seq<string>>)

  /** A bearer token: owner email, its own id and the expiry in
      milliseconds since the epoch. */
  datatype Token = Token(email: string, id: string, expires: int)

  /** A monitor definition. */
  datatype Check = Check(
    id: string,
    userEmail: string,
    protocol: string,
    url: string,
    httpMethod: string,
    successCodes: seq<Json.Value>,
    timeOutSeconds: int)

  /** The three collections `users`, `tokens` and `checks`. */
  datatype Store = Store(
    users: map<string, User>,
    tokens: map<string, Token>,
    checks: map<string, Check>)

  /** The user's check list as the handlers read it: anything that is not
      an array counts as the empty list. */
  function ChecksOf(u: User): seq<string>
  {
    u.checks.GetOr([])
  }

  /** The user as the fetch and update responses show it: every field but
      the password. */
  datatype PublicUser = PublicUser(
    firstName: string,
    lastName: string,
    email: string,
    tos: bool,
    phone: string,
    checks: Option<seq<string>>)

  function WithoutPassword(u: User): PublicUser
  {
    PublicUser(u.firstName, u.lastName, u.email, u.tos, u.phone, u.checks)
  }
}

=== FILE: routing.dfy ===
/** The route table and the pure part of the request dispatcher: trim the
    path, pick the handler (falling back to the not-found page),
    short-circuit OPTIONS, normalise what the handler answers and wrap it
    in the `{success, data}` envelope. */
module Routing {
  import opened Wrappers
  import opened Text
  import opened Records
  import opened Api
  import Tokens
  import Users
  import Checks

  datatype Service = Home | About | UserService | TokenService | NotFound | CheckService

  /** The route object: trimmed path to handler. */
  const Routes: map<string, Service> := map[
    "" := Home,
    "about" := About,
    "user" := UserService,
    "token" := TokenService,
    "notFound" := NotFound,
    "check" := CheckService]

  /** `routes[trimmedPath] ? routes[trimmedPath] : notFoundHandler`. */
  function Select(trimmedPath: string): Service
  {
    if trimmedPath in Routes then Routes[trimmedPath] else NotFound
  }

  /** The table holds exactly six paths. */
  lemma RouteKeys()
    ensures Routes.Keys == {"", "about", "user", "token", "notFound", "check"}
  {
  }

  /** Slashes around a path never change which handler runs: "/user/",
      "user" and "//user" select the same service, and a longer path such
      as "user/extra" is looked up whole, so it is not the user service. */
  lemma SelectIgnoresSlashes(m: string, i: nat, j: nat)
    requires SlashFree(m)
    ensures Select(TrimSlashes(Repeat('/', i) + m + Repeat('/', j))) == Select(m)
  {
    TrimSlashesUnique(Repeat('/', i) + m + Repeat('/', j), i, m, j);
  }

  /** Every route is reached however many slashes surround it; the root in
      particular by "", "/" or "///". */
  lemma RouteReached(name: string, i: nat, j: nat)
    requires name in Routes
    ensures Select(TrimSlashes(Repeat('/', i) + name + Repeat('/', j))) == Routes[name]
  {
    assert SlashFree(name);
    SelectIgnoresSlashes(name, i, j);
  }

  /** Run one handler. The home, about and not-found handlers only echo the
      request under a constant status. */
  function Invoke(svc: Service, s: Store, now: int, hash: string -> string, o: Oracle, req: Request): (r: Reply)
    ensures svc in {Home, About, NotFound} ==> r.store == s
    ensures svc == NotFound ==> r.status == 404
    ensures svc in {Home, About} ==> r.status == 200
    ensures svc == UserService ==> r.store.tokens == s.tokens && r.store.checks == s.checks
    ensures svc == TokenService ==> r.store.users == s.users && r.store.checks == s.checks
    ensures svc == CheckService ==> r.store.tokens == s.tokens
    ensures svc in {UserService, TokenService, CheckService} ==>
      (r.status == 405 <==> !Accepted(req.httpMethod))
    ensures svc == UserService ==> r == Users.Handle(s, hash, o, req)
    ensures svc == TokenService ==> r == Tokens.Handle(s, now, hash, o, req)
    ensures svc == CheckService ==> r == Checks.Handle(s, now, o, req)
  {
    match svc
    case Home => Reply(s, 200, Page("Welcome to the home page"))
    case About => Reply(s, 200, Page("Welcome to the about page"))
    case NotFound => Reply(s, 404, Page("Page not found"))
    case UserService => Users.Handle(s, hash, o, req)
    case TokenService => Tokens.Handle(s, now, hash, o, req)
    case CheckService => Checks.Handle(s, now, o, req)
  }

  /** The JSON envelope of every answer but OPTIONS. */
  datatype Envelope = Envelope(success: bool, data: Payload)

  datatype Response = NoContent | Json(status: int, envelope: Envelope)

  /** The store after the request and what went back on the wire. */
  datatype Exchange = Exchange(store: Store, response: Response)

  /** The callback of the dispatcher: a status that is not a number becomes
      500, a payload that is null or not an object becomes `{}`, and the
      envelope reports success exactly for the 2xx codes. */
  function Respond(status: Option<int>, payload: Option<Payload>): (resp: Response)
    ensures resp.Json?
    ensures resp.envelope.success <==> 200 <= resp.status < 300
    ensures status.Some? ==> resp.status == status.value
    ensures status.None? ==> resp.status == 500 && !resp.envelope.success
    ensures resp.envelope.data == payload.GetOr(Empty)
  {
    var code := if status.Some? then status.value else 500;
    var data := if payload.Some? then payload.value else Empty;
    Json(code, Envelope(code >= 200 && code < 300, data))
  }

  /** `handleReqRes` from the decoded request on: the method is lowercased,
      OPTIONS answers 204 without running any handler, everything else runs
      the handler the trimmed path selects. */
  function HandleReqRes(s: Store, now: int, hash: string -> string, o: Oracle, req: Request): (x: Exchange)
    ensures Lower(req.httpMethod) == "options" ==> x == Exchange(s, NoContent)
    ensures Lower(req.httpMethod) != "options" ==>
      var r := Invoke(Select(TrimSlashes(req.path)), s, now, hash, o, req.(httpMethod := Lower(req.httpMethod)));
      && x.store == r.store
      && x.response == Json(r.status, Envelope(200 <= r.status < 300, r.payload))
  {
    var m := Lower(req.httpMethod);
    if m == "options" then
      Exchange(s, NoContent)
    else
      var props := req.(httpMethod := m);
      var r := Invoke(Select(TrimSlashes(req.path)), s, now, hash, o, props);
      Exchange(r.store, Respond(Some(r.status), Some(r.payload)))
  }

  /** A path outside the table answers 404 through the not-found page and
      changes nothing, whatever the method (OPTIONS aside). */
  lemma UnknownPathIsNotFound(s: Store, now: int, hash: string -> string, o: Oracle, req: Request)
    requires TrimSlashes(req.path) !in Routes
    requires Lower(req.httpMethod) != "options"
    ensures HandleReqRes(s, now, hash, o, req) == Exchange(s, Json(404, Envelope(false, Page("Page not found"))))
  {
  }

  /** On a service path, a method other than post, get, put, delete and
      options (in any letter case) answers 405 and changes nothing; the
      service lowercasing the already-lowered method again is harmless. */
  lemma UnsupportedMethodIs405(s: Store, now: int, hash: string -> string, o: Oracle, req: Request)
    requires Select(TrimSlashes(req.path)) in {UserService, TokenService, CheckService}
    requires Lower(req.httpMethod) !in ServiceMethods && Lower(req.httpMethod) != "options"
    ensures var x := HandleReqRes(s, now, hash, o, req);
      x.store.users == s.users && x.store.tokens == s.tokens && x.store.checks == s.checks
      && x.response == Json(405, Envelope(false, MethodNotAllowed))
  {
    LowerIdempotent(req.httpMethod);
    var svc := Select(TrimSlashes(req.path));
    var props := req.(httpMethod := Lower(req.httpMethod));
    assert !Accepted(props.httpMethod);
    match svc
    case UserService => assert Users.Handle(s, hash, o, props).store == s;
    case TokenService => assert Tokens.Handle(s, now, hash, o, props).store == s;
    case CheckService => assert Checks.Handle(s, now, o, props).store == s;
  }
}

=== FILE: text.dfy ===
/** The JavaScript string operations the request pipeline relies on:
    `trim`, the quote-stripping regular expression of the user service,
    the slash-trimming regular expression of the dispatcher and
    `toLowerCase` on method names. */
module Text {

  /** The characters `String.prototype.trim` removes: the ECMAScript
      WhiteSpace and LineTerminator code points. */
  predicate IsSpace(c: char)
  {
    || c == '\t' || c == '\n' || c == '\U{B}' || c == '\U{C}' || c == '\r'
    || c == ' ' || c == '\U{A0}' || c == '\U{1680}'
    || ('\U{2000}' <= c <= '\U{200A}')
    || c == '\U{2028}' || c == '\U{2029}' || c == '\U{202F}' || c == '\U{205F}'
    || c == '\U{3000}' || c == '\U{FEFF}'
  }

  /** Every character is white space (the empty string included). */
  predicate IsBlank(s: string)
  {
    forall i | 0 <= i < |s| :: IsSpace(s[i])
  }

  /** Leading white space removed: the result is a suffix of `s`, what was
      dropped is blank, and the result does not start with white space. */
  function TrimStart(s: string): (r: string)
    ensures |r| <= |s| && r == s[|s| - |r|..]
    ensures IsBlank(s[..|s| - |r|])
    ensures r == [] || !IsSpace(r[0])
  {
    if |s| > 0 && IsSpace(s[0]) then
      var r := TrimStart(s[1..]);
      assert s[..|s| - |r|] == [s[0]] + s[1..][..|s| - 1 - |r|];
      r
    else
      s
  }

  /** Trailing white space removed: the result is a prefix of `s`, what was
      dropped is blank, and the result does not end with white space. */
  function TrimEnd(s: string): (r: string)
    ensures |r| <= |s| && r == s[..|r|]
    ensures IsBlank(s[|r|..])
    ensures r == [] || !IsSpace(r[|r| - 1])
  {
    if |s| > 0 && IsSpace(s[|s| - 1]) then
      var r := TrimEnd(s[..|s| - 1]);
      assert s[|r|..] == s[..|s| - 1][|r|..] + [s[|s| - 1]];
      r
    else
      s
  }

  /** `String.prototype.trim`. */
  function Trim(s: string): string
  {
    TrimEnd(TrimStart(s))
  }

  /** `s.trim().length > 0` holds exactly of the strings that are not blank. */
  lemma TrimEmptyIffBlank(s: string)
    ensures |Trim(s)| == 0 <==> IsBlank(s)
  {
    var t := TrimStart(s);
    if |Trim(s)| == 0 {
      assert IsBlank(t[0..]);
      assert t == [];
      assert s[..|s|] == s;
    }
  }

  /** Trimming a string whose ends are not white space changes nothing. */
  lemma TrimNoop(s: string)
    requires s == [] || (!IsSpace(s[0]) && !IsSpace(s[|s| - 1]))
    ensures Trim(s) == s
  {
  }

  /** A character outside the Basic Multilingual Plane, which UTF-16
      stores as a surrogate pair. */
  predicate Astral(c: char)
  {
    c as int > 0xFFFF
  }

  /** `s.length`: JavaScript counts UTF-16 code units, so an astral
      character counts twice. */
  function Length(s: string): (n: nat)
    ensures |s| <= n <= 2 * |s|
    ensures n == 0 <==> s == []
  {
    if s == [] then 0 else (if Astral(s[0]) then 2 else 1) + Length(s[1..])
  }

  /** Without astral characters the JavaScript length is the character
      count. */
  lemma {:induction false} LengthWithoutAstral(s: string)
    requires forall i | 0 <= i < |s| :: !Astral(s[i])
    ensures Length(s) == |s|
  {
    if s != [] {
      assert forall i | 0 <= i < |s[1..]| :: !Astral(s[1..][i]) by {
        forall i | 0 <= i < |s[1..]| ensures !Astral(s[1..][i]) {
          assert s[1..][i] == s[i + 1];
        }
      }
      LengthWithoutAstral(s[1..]);
    }
  }

  /** A string of astral characters has twice as many code units as
      characters. */
  lemma {:induction false} LengthAllAstral(s: string)
    requires forall i | 0 <= i < |s| :: Astral(s[i])
    ensures Length(s) == 2 * |s|
  {
    if s != [] {
      assert forall i | 0 <= i < |s[1..]| :: Astral(s[1..][i]) by {
        forall i | 0 <= i < |s[1..]| ensures Astral(s[1..][i]) {
          assert s[1..][i] == s[i + 1];
        }
      }
      LengthAllAstral(s[1..]);
    }
  }

  /** `s.replace(/(^"|"$)/g, "")`: one leading and one trailing double quote
      are removed when present; a lone `"` is removed once. */
  function StripQuotes(s: string): string
  {
    var t := if |s| > 0 && s[0] == '"' then s[1..] else s;
    if |t| > 0 && t[|t| - 1] == '"' then t[..|t| - 1] else t
  }

  /** Stripping inverts quoting: a value sent wrapped in quotes is looked up
      as the bare value, whatever it contains. */
  lemma {:induction false} StripQuotesOfQuoted(e: string)
    ensures StripQuotes("\"" + e + "\"") == e
  {
    var q := "\"" + e + "\"";
    assert q[0] == '"';
    assert q[1..] == e + "\"";
  }

  /** A value that neither starts nor ends with a quote is left alone, and
      any stripped value differs from its input only at the two ends. */
  lemma StripQuotesShape(s: string)
    ensures (s == [] || (s[0] != '"' && s[|s| - 1] != '"')) ==> StripQuotes(s) == s
    ensures |s| - 2 <= |StripQuotes(s)| <= |s|
  {
  }

  /** An input made of one or two quotes only becomes empty; three quotes
      leave one behind. */
  lemma StripQuotesOnlyQuotes()
    ensures StripQuotes("\"") == ""
    ensures StripQuotes("\"\"") == ""
    ensures StripQuotes("\"\"\"") == "\""
  {
  }

  /** `c` repeated `n` times. */
  function Repeat(c: char, n: nat): (r: string)
    ensures |r| == n && forall i | 0 <= i < n :: r[i] == c
  {
    if n == 0 then [] else [c] + Repeat(c, n - 1)
  }

  /** `s` with every leading `c` removed (the regular expression `^c+`). */
  function DropLeading(s: string, c: char): (r: string)
    ensures |r| <= |s| && s == Repeat(c, |s| - |r|) + r
    ensures r == [] || r[0] != c
  {
    if |s| > 0 && s[0] == c then
      var r := DropLeading(s[1..], c);
      assert Repeat(c, |s| - |r|) == [c] + Repeat(c, |s| - 1 - |r|);
      r
    else
      s
  }

  /** `s` with every trailing `c` removed (the regular expression `c+$`). */
  function DropTrailing(s: string, c: char): (r: string)
    ensures |r| <= |s| && s == r + Repeat(c, |s| - |r|)
    ensures r == [] || r[|r| - 1] != c
  {
    if |s| > 0 && s[|s| - 1] == c then
      var r := DropTrailing(s[..|s| - 1], c);
      var n := |s| - 1 - |r|;
      assert Repeat(c, n + 1) == Repeat(c, n) + [c];
      assert s == s[..|s| - 1] + [c];
      r
    else
      s
  }

  /** `path.replace(/^\/+|\/+$/g, "")`: all leading and all trailing
      slashes removed, interior slashes kept. */
  function TrimSlashes(path: string): string
  {
    DropTrailing(DropLeading(path, '/'), '/')
  }

  /** Neither end of `m` is a slash. */
  predicate SlashFree(m: string)
  {
    m == [] || (m[0] != '/' && m[|m| - 1] != '/')
  }

  lemma RepeatAppend(c: char, a: nat, b: nat)
    ensures Repeat(c, a) + Repeat(c, b) == Repeat(c, a + b)
  {
    assert |Repeat(c, a) + Repeat(c, b)| == a + b;
  }

  /** If `s` is `i` copies of `c`, the middle part `m`, then `j` copies
      of `c`, and `m` starts with something else, then `m + Repeat(c, j)`
      is what dropping the leading `c`s leaves. */
  lemma {:induction false} DropLeadingOf(c: char, i: nat, rest: string)
    requires rest == [] || rest[0] != c
    ensures DropLeading(Repeat(c, i) + rest, c) == rest
  {
    if i > 0 {
      var s := Repeat(c, i) + rest;
      assert s[0] == c;
      assert s[1..] == Repeat(c, i - 1) + rest;
      DropLeadingOf(c, i - 1, rest);
    } else {
      assert Repeat(c, 0) + rest == rest;
    }
  }

  lemma {:induction false} DropTrailingOf(c: char, m: string, j: nat)
    requires m == [] || m[|m| - 1] != c
    ensures DropTrailing(m + Repeat(c, j), c) == m
  {
    if j > 0 {
      var s := m + Repeat(c, j);
      assert s[|s| - 1] == c;
      assert Repeat(c, j) == Repeat(c, j - 1) + [c] by { RepeatAppend(c, j - 1, 1); }
      assert s[..|s| - 1] == m + Repeat(c, j - 1);
      DropTrailingOf(c, m, j - 1);
    } else {
      assert m + Repeat(c, 0) == m;
    }
  }

  /** The trimmed path has no slash at either end, and `path` is some
      slashes, the trimmed path, then some slashes. */
  lemma TrimSlashesShape(path: string)
    ensures SlashFree(TrimSlashes(path))
    ensures exists a: nat, b: nat :: path == Repeat('/', a) + TrimSlashes(path) + Repeat('/', b)
  {
    var l := DropLeading(path, '/');
    var r := DropTrailing(l, '/');
    if r != [] {
      assert r[0] == l[0];
    }
    var a, b := TrimSlashesSplit(path);
  }

  /** The slash runs `TrimSlashes` removes, as counts. */
  lemma TrimSlashesSplit(path: string) returns (a: nat, b: nat)
    ensures path == Repeat('/', a) + TrimSlashes(path) + Repeat('/', b)
  {
    var l := DropLeading(path, '/');
    var r := DropTrailing(l, '/');
    a, b := |path| - |l|, |l| - |r|;
    assert path == Repeat('/', a) + (r + Repeat('/', b));
  }

  /** Any decomposition of `path` into slashes, a slash-free middle and
      slashes has the trimmed path as its middle: interior slashes survive. */
  lemma {:induction false} TrimSlashesUnique(path: string, i: nat, m: string, j: nat)
    requires path == Repeat('/', i) + m + Repeat('/', j) && SlashFree(m)
    ensures TrimSlashes(path) == m
  {
    if m == [] {
      RepeatAppend('/', i, j);
      assert path == Repeat('/', i + j) + [];
      DropLeadingOf('/', i + j, []);
    } else {
      assert path == Repeat('/', i) + (m + Repeat('/', j));
      DropLeadingOf('/', i, m + Repeat('/', j));
      DropTrailingOf('/', m, j);
    }
  }

  /** The root path in any spelling trims to the empty key. */
  lemma RootPathsTrimToEmpty()
    ensures TrimSlashes("") == "" && TrimSlashes("/") == "" && TrimSlashes("///") == ""
    ensures TrimSlashes("/user/") == "user" && TrimSlashes("//a/b//") == "a/b"
  {
    TrimSlashesUnique("/", 1, "", 0);
    TrimSlashesUnique("///", 3, "", 0);
    TrimSlashesUnique("/user/", 1, "user", 1);
    TrimSlashesUnique("//a/b//", 2, "a/b", 2);
  }

  /** ASCII `toLowerCase` on one character. */
  function LowerChar(c: char): char
  {
    if 'A' <= c <= 'Z' then (c as int - 'A' as int + 'a' as int) as char else c
  }

  /** `toLowerCase` on method names (which HTTP keeps to ASCII tokens). */
  function Lower(s: string): (r: string)
    ensures |r| == |s|
    ensures forall i | 0 <= i < |s| :: r[i] == LowerChar(s[i])
  {
    if s == [] then [] else [LowerChar(s[0])] + Lower(s[1..])
  }

  /** Lowering twice is lowering once: the dispatcher lowers the method
      and each service lowers it again, with the same effect. */
  lemma {:induction false} LowerIdempotent(s: string)
    ensures Lower(Lower(s)) == Lower(s)
  {
    var l := Lower(s);
    var ll := Lower(l);
    assert |ll| == |l|;
    forall i | 0 <= i < |l|
      ensures ll[i] == l[i]
    {
      assert ll[i] == LowerChar(l[i]);
    }
  }
}

=== FILE: tokens.dfy ===
/** The token service: issue a token for a correct password, fetch,
    extend while unexpired, revoke, and the `verify` capability the check
    service uses. Only the `tokens` collection ever changes. */
module Tokens {
  import opened Wrappers
  import opened Text
  import opened Json
  import opened Records
  import opened Api
  import Kv

  /** Token ids have exactly this many characters. */
  const IdLength: nat := 50

  /** A token lives for one day, in milliseconds. */
  const Day: int := 1000 * 60 * 60 * 24

  /** An id parameter as the fetch, extend and revoke operations accept it:
      a string whose trimmed length, in UTF-16 code units, is exactly 50.
      The untrimmed string is the key. */
  function TokenId(v: Option<Value>): (r: Option<string>)
    ensures r.Some? <==> v.Some? && v.value.Str? && Length(Trim(v.value.s)) == IdLength
    ensures r.Some? ==> r.value == v.value.s
  {
    if v.Some? && v.value.Str? && Length(Trim(v.value.s)) == IdLength then Some(v.value.s) else None
  }

  /** The length test counts code units, not characters: 25 astral
      characters pass it and 50 of them do not. */
  lemma TokenIdCountsCodeUnits(s: string)
    requires s != [] && forall i | 0 <= i < |s| :: Astral(s[i])
    ensures TokenId(Some(Str(s))).Some? <==> |s| == IdLength / 2
  {
    assert !IsSpace(s[0]) && !IsSpace(s[|s| - 1]);
    TrimNoop(s);
    LengthAllAstral(s);
  }

  /** `_tokens.verify(id, email)`: the token exists, belongs to `email` and
      has not expired. It only reads. */
  function Verify(s: Store, now: int, o: Oracle, id: string, email: string): (valid: bool)
    ensures valid <==> && !o.Fails(Kv.Tokens, Kv.ReadOp) && id in s.tokens
                       && s.tokens[id].email == email && now < s.tokens[id].expires
  {
    match Kv.Read(s.tokens, id, o.Fails(Kv.Tokens, Kv.ReadOp))
    case None => false
    case Some(t) => t.email == email && t.expires > now
  }

  /** `_tokens.post`: log in with email and password. */
  function Issue(s: Store, now: int, hash: string -> string, o: Oracle, body: Body): (r: Reply)
    ensures r.status in {200, 400, 500}
    ensures r.store.users == s.users && r.store.checks == s.checks
    ensures r.status != 200 ==> r.store == s
    ensures NonBlank(Field(body, "email")).None? || NonBlank(Field(body, "password")).None? ==> r.status == 400
    ensures var email, password := NonBlank(Field(body, "email")), NonBlank(Field(body, "password"));
      email.Some? && password.Some? ==>
        && (o.Fails(Kv.Users, Kv.ReadOp) || email.value !in s.users ==> r.status == 500)
        && (!o.Fails(Kv.Users, Kv.ReadOp) && email.value in s.users && hash(password.value) != s.users[email.value].password
            ==> r.status == 400)
    ensures var email, password := NonBlank(Field(body, "email")), NonBlank(Field(body, "password"));
      r.status == 200 <==>
        && email.Some? && password.Some?
        && !o.Fails(Kv.Users, Kv.ReadOp) && email.value in s.users
        && hash(password.value) == s.users[email.value].password
        && !o.Fails(Kv.Tokens, Kv.CreateOp) && o.newId(IdLength) !in s.tokens
    ensures var email, password := NonBlank(Field(body, "email")), NonBlank(Field(body, "password"));
      r.status == 500 <==>
        && email.Some? && password.Some?
        && (|| o.Fails(Kv.Users, Kv.ReadOp) || email.value !in s.users
            || (&& hash(password.value) == s.users[email.value].password
                && (o.Fails(Kv.Tokens, Kv.CreateOp) || o.newId(IdLength) in s.tokens)))
    ensures r.status == 200 ==>
      var t := Token(body["email"].s, o.newId(IdLength), now + Day);
      && r.payload == TokenData(t)
      && r.store.tokens == s.tokens[t.id := t]
  {
    var password := NonBlank(Field(body, "password"));
    var email := NonBlank(Field(body, "email"));
    if email.None? || password.None? then
      Reply(s, 400, Message("Missing required fields"))
    else
      match Kv.Read(s.users, email.value, o.Fails(Kv.Users, Kv.ReadOp))
      case None => Reply(s, 500, Message("Failed to find user"))
      case Some(u) =>
        var t := Token(email.value, o.newId(IdLength), now + Day);
        if hash(password.value) == u.password then
          match Kv.Create(s.tokens, t.id, t, o.Fails(Kv.Tokens, Kv.CreateOp))
          case Some(tokens) => Reply(s.(tokens := tokens), 200, TokenData(t))
          case None => Reply(s, 500, Message("Failed to create token"))
        else
          Reply(s, 400, Message("Invalid password"))
  }

  /** `_tokens.get`: read-only lookup by a 50-character id. */
  function Fetch(s: Store, o: Oracle, req: Request): (r: Reply)
    ensures r.store == s
    ensures r.status in {200, 400, 404}
    ensures r.status == 400 <==> TokenId(QueryField(req, "id")).None?
    ensures r.status == 200 <==>
      var id := TokenId(QueryField(req, "id"));
      id.Some? && !o.Fails(Kv.Tokens, Kv.ReadOp) && id.value in s.tokens
    ensures r.status == 200 ==> r.payload == TokenData(s.tokens[req.query["id"]])
  {
    match TokenId(QueryField(req, "id"))
    case None => Reply(s, 400, Message("Invalid token"))
    case Some(id) =>
      match Kv.Read(s.tokens, id, o.Fails(Kv.Tokens, Kv.ReadOp))
      case Some(t) => Reply(s, 200, TokenData(t))
      case None => Reply(s, 404, Message("Token not found"))
  }

  /** `_tokens.put`: push the expiry of a live token to one day from now. */
  function Extend(s: Store, now: int, o: Oracle, body: Body): (r: Reply)
    ensures r.status in {200, 400, 500}
    ensures r.store.users == s.users && r.store.checks == s.checks
    ensures r.status != 200 ==> r.store == s
    ensures TokenId(Field(body, "id")).None? || !BoolOr(Field(body, "extend")) ==> r.status == 400
    ensures r.status == 200 <==>
      var id := TokenId(Field(body, "id"));
      && id.Some? && BoolOr(Field(body, "extend"))
      && !o.Fails(Kv.Tokens, Kv.ReadOp) && id.value in s.tokens
      && now < s.tokens[id.value].expires
      && !o.Fails(Kv.Tokens, Kv.UpdateOp)
    ensures r.status == 500 <==>
      var id := TokenId(Field(body, "id"));
      && id.Some? && BoolOr(Field(body, "extend"))
      && !o.Fails(Kv.Tokens, Kv.ReadOp) && id.value in s.tokens
      && now < s.tokens[id.value].expires
      && o.Fails(Kv.Tokens, Kv.UpdateOp)
    ensures var id := TokenId(Field(body, "id"));
      id.Some? && BoolOr(Field(body, "extend")) ==>
        && (o.Fails(Kv.Tokens, Kv.ReadOp) || id.value !in s.tokens ==> r.status == 400)
        && (!o.Fails(Kv.Tokens, Kv.ReadOp) && id.value in s.tokens && s.tokens[id.value].expires <= now
            ==> r.status == 400)
    ensures r.status == 200 ==>
      var id := body["id"].s;
      r.store.tokens == s.tokens[id := s.tokens[id].(expires := now + Day)]
  {
    var id := TokenId(Field(body, "id"));
    var extend := BoolOr(Field(body, "extend"));
    if id.Some? && extend then
      match Kv.Read(s.tokens, id.value, o.Fails(Kv.Tokens, Kv.ReadOp))
      case None => Reply(s, 400, Message("Token not found"))
      case Some(t) =>
        if now < t.expires then
          match Kv.Update(s.tokens, id.value, t.(expires := now + Day), o.Fails(Kv.Tokens, Kv.UpdateOp))
          case Some(tokens) => Reply(s.(tokens := tokens), 200, Message("Token extended successfully"))
          case None => Reply(s, 500, Message("Failed to extend token"))
        else
          Reply(s, 400, Message("Token expired"))
    else
      Reply(s, 400, Message("Invalid token"))
  }

  /** `_tokens.delete`: remove a token and answer with what it held. */
  function Revoke(s: Store, o: Oracle, req: Request): (r: Reply)
    ensures r.status in {200, 400, 500}
    ensures r.store.users == s.users && r.store.checks == s.checks
    ensures r.status != 200 ==> r.store == s
    ensures r.status == 200 <==>
      var id := TokenId(QueryField(req, "id"));
      && id.Some? && !o.Fails(Kv.Tokens, Kv.ReadOp) && id.value in s.tokens
      && !o.Fails(Kv.Tokens, Kv.DeleteOp)
    ensures r.status == 500 <==>
      var id := TokenId(QueryField(req, "id"));
      && id.Some? && !o.Fails(Kv.Tokens, Kv.ReadOp) && id.value in s.tokens
      && o.Fails(Kv.Tokens, Kv.DeleteOp)
    ensures r.status == 400 <==>
      var id := TokenId(QueryField(req, "id"));
      id.None? || o.Fails(Kv.Tokens, Kv.ReadOp) || id.value !in s.tokens
    ensures r.status == 200 ==>
      var id := req.query["id"];
      && r.store.tokens == s.tokens - {id}
      && r.payload == TokenRemoved("Token deleted successfully", s.tokens[id])
  {
    match TokenId(QueryField(req, "id"))
    case None => Reply(s, 400, Message("Invalid token"))
    case Some(id) =>
      match Kv.Read(s.tokens, id, o.Fails(Kv.Tokens, Kv.ReadOp))
      case None => Reply(s, 400, Message("Token not found"))
      case Some(t) =>
        match Kv.Delete(s.tokens, id, o.Fails(Kv.Tokens, Kv.DeleteOp))
        case Some(tokens) => Reply(s.(tokens := tokens), 200, TokenRemoved("Token deleted successfully", t))
        case None => Reply(s, 500, Message("Failed to delete token"))
  }

  /** `tokenHandler`: lowercase the method, answer 405 outside the four
      accepted ones, otherwise run the matching operation. */
  function Handle(s: Store, now: int, hash: string -> string, o: Oracle, req: Request): (r: Reply)
    ensures r.store.users == s.users && r.store.checks == s.checks
    ensures r.status == 405 <==> !Accepted(req.httpMethod)
    ensures r.status == 405 ==> r.store == s && r.payload == MethodNotAllowed
    ensures Lower(req.httpMethod) == "post" ==> r == Issue(s, now, hash, o, req.body)
    ensures Lower(req.httpMethod) == "get" ==> r == Fetch(s, o, req)
    ensures Lower(req.httpMethod) == "put" ==> r == Extend(s, now, o, req.body)
    ensures Lower(req.httpMethod) == "delete" ==> r == Revoke(s, o, req)
  {
    var m := Lower(req.httpMethod);
    if m == "post" then Issue(s, now, hash, o, req.body)
    else if m == "get" then Fetch(s, o, req)
    else if m == "put" then Extend(s, now, o, req.body)
    else if m == "delete" then Revoke(s, o, req)
    else Reply(s, 405, MethodNotAllowed)
  }

  /** Extension and verification agree: at the same instant, extend
      accepts a stored token exactly when the token verifies for its own
      owner, since both compare `now < expires` strictly. */
  lemma ExtendAgreesWithVerify(s: Store, now: int, o: Oracle, body: Body)
    requires TokenId(Field(body, "id")).Some? && BoolOr(Field(body, "extend"))
    requires !o.Fails(Kv.Tokens, Kv.UpdateOp)
    requires body["id"].s in s.tokens
    ensures var id := body["id"].s;
      Extend(s, now, o, body).status == 200 <==> Verify(s, now, o, id, s.tokens[id].email)
  {
  }

  /** A token just issued verifies for its email until a day has passed,
      and from then on it does not. */
  lemma {:induction false} IssuedTokenVerifies(s: Store, now: int, hash: string -> string, o: Oracle, body: Body,
                                               later: int, o2: Oracle)
    requires Issue(s, now, hash, o, body).status == 200
    requires !o2.Fails(Kv.Tokens, Kv.ReadOp)
    ensures var s2 := Issue(s, now, hash, o, body).store;
      Verify(s2, later, o2, o.newId(IdLength), body["email"].s) <==> later < now + Day
  {
    var r := Issue(s, now, hash, o, body);
    var id := o.newId(IdLength);
    assert r.store.tokens[id] == Token(body["email"].s, id, now + Day);
  }

  /** An id the generator produces passes the 50-character test. */
  lemma GeneratedIdAccepted(id: string)
    requires IdShape(id, IdLength)
    ensures TokenId(Some(Str(id))) == Some(id)
  {
    assert !IsSpace(id[0]) && !IsSpace(id[|id| - 1]);
    TrimNoop(id);
    LengthWithoutAstral(id);
  }

  /** Issuing a token and revoking it by the id handed out restores the
      store, and the revocation answers with the issued token. */
  lemma IssueThenRevoke(s: Store, now: int, hash: string -> string, o: Oracle, body: Body, o2: Oracle, req: Request)
    requires Issue(s, now, hash, o, body).status == 200
    requires IdShape(o.newId(IdLength), IdLength)
    requires req.query == map["id" := o.newId(IdLength)]
    requires Reliable(o2)
    ensures Revoke(Issue(s, now, hash, o, body).store, o2, req).store == s
    ensures Revoke(Issue(s, now, hash, o, body).store, o2, req).payload
            == TokenRemoved("Token deleted successfully", Issue(s, now, hash, o, body).payload.token)
  {
    var id := o.newId(IdLength);
    var t := Token(body["email"].s, id, now + Day);
    assert Issue(s, now, hash, o, body).store == s.(tokens := s.tokens[id := t]);
    assert QueryField(req, "id") == Some(Str(id));
    GeneratedIdAccepted(id);
    RevokeAfterCreate(s, t, o2, req);
  }

  /** Fetching by the id handed out at login answers with the issued
      token, as long as the read succeeds. */
  lemma IssueThenFetch(s: Store, now: int, hash: string -> string, o: Oracle, body: Body, o2: Oracle, req: Request)
    requires Issue(s, now, hash, o, body).status == 200
    requires IdShape(o.newId(IdLength), IdLength)
    requires req.query == map["id" := o.newId(IdLength)]
    requires !o2.Fails(Kv.Tokens, Kv.ReadOp)
    ensures var r := Fetch(Issue(s, now, hash, o, body).store, o2, req);
      r.status == 200 && r.payload == Issue(s, now, hash, o, body).payload
  {
    var id := o.newId(IdLength);
    var tk := Token(body["email"].s, id, now + Day);
    var r := Issue(s, now, hash, o, body);
    assert r.payload == TokenData(tk);
    assert id in r.store.tokens && r.store.tokens[id] == tk;
    assert QueryField(req, "id") == Some(Str(id));
    GeneratedIdAccepted(id);
    FetchStored(r.store, o2, req, tk);
  }

  /** A stored token is fetched by its id. */
  lemma FetchStored(s: Store, o: Oracle, req: Request, t: Token)
    requires TokenId(QueryField(req, "id")) == Some(t.id)
    requires t.id in s.tokens && s.tokens[t.id] == t
    requires !o.Fails(Kv.Tokens, Kv.ReadOp)
    ensures Fetch(s, o, req).status == 200 && Fetch(s, o, req).payload == TokenData(t)
  {
  }

  /** Revoking a token that was just added to `s` gives back `s`. */
  lemma RevokeAfterCreate(s: Store, t: Token, o2: Oracle, req: Request)
    requires t.id !in s.tokens
    requires TokenId(QueryField(req, "id")) == Some(t.id)
    requires Reliable(o2)
    ensures Revoke(s.(tokens := s.tokens[t.id := t]), o2, req).store == s
    ensures Revoke(s.(tokens := s.tokens[t.id := t]), o2, req).payload == TokenRemoved("Token deleted successfully", t)
  {
    assert s.tokens[t.id := t] - {t.id} == s.tokens;
  }

  /** After a successful extension the token verifies for its owner until
      a day from the extension has passed, and from then on it does not. */
  lemma ExtendedTokenVerifies(s: Store, now: int, o: Oracle, body: Body, later: int, o2: Oracle)
    requires Extend(s, now, o, body).status == 200
    requires !o2.Fails(Kv.Tokens, Kv.ReadOp)
    ensures var id := body["id"].s;
      Verify(Extend(s, now, o, body).store, later, o2, id, s.tokens[id].email) <==> later < now + Day
  {
  }
}

=== FILE: users.dfy ===
/** The user service: register, fetch without the password, partial
    update and delete. None of these consults a token, and delete removes
    the user record alone. Only the `users` collection ever changes. */
module Users {
  import opened Wrappers
  import opened Text
  import opened Json
  import opened Records
  import opened Api
  import Kv

  /** A password field as the handlers keep it: the hash of a non-blank
      string, or `false`. A hash that is the empty string is as falsy as
      `false` in every test the handlers make, so it is `None` too. */
  function Hashed(hash: string -> string, v: Option<Value>): (r: Option<string>)
    ensures r.Some? <==> NonBlank(v).Some? && hash(v.value.s) != ""
    ensures r.Some? ==> r.value == hash(v.value.s)
  {
    match NonBlank(v)
    case Some(p) => if hash(p) != "" then Some(hash(p)) else None
    case None => None
  }

  /** The email query parameter of fetch and delete: non-blank before the
      quotes are stripped; empty after stripping counts as missing. */
  function QueryEmail(req: Request): (r: Option<string>)
    ensures r.Some? <==> && NonBlank(QueryField(req, "email")).Some?
                         && StripQuotes(req.query["email"]) != ""
    ensures r.Some? ==> r.value == StripQuotes(req.query["email"])
  {
    match NonBlank(QueryField(req, "email"))
    case Some(e) => if StripQuotes(e) != "" then Some(StripQuotes(e)) else None
    case None => None
  }

  /** The record registration would store for `body`, when every field is
      valid: the password hashed, `tos` true and no `checks` field. */
  function NewUser(hash: string -> string, body: Body): (u: Option<User>)
    ensures u.Some? <==>
      && NonBlank(Field(body, "firstName")).Some? && NonBlank(Field(body, "lastName")).Some?
      && NonBlank(Field(body, "phone")).Some? && NonBlank(Field(body, "email")).Some?
      && Hashed(hash, Field(body, "password")).Some?
      && Field(body, "tos") == Some(Bool(true))
    ensures u.Some? ==>
      && u.value.firstName == body["firstName"].s && u.value.lastName == body["lastName"].s
      && u.value.phone == body["phone"].s && u.value.email == body["email"].s
      && u.value.password == hash(body["password"].s)
      && u.value.tos && u.value.checks.None?
  {
    var firstName := NonBlank(Field(body, "firstName"));
    var lastName := NonBlank(Field(body, "lastName"));
    var phone := NonBlank(Field(body, "phone"));
    var email := NonBlank(Field(body, "email"));
    var password := Hashed(hash, Field(body, "password"));
    var tos := BoolOr(Field(body, "tos"));
    if firstName.Some? && lastName.Some? && phone.Some? && email.Some? && password.Some? && tos then
      Some(User(firstName.value, lastName.value, email.value, password.value, tos, phone.value, None))
    else
      None
  }

  /** `_users.post`: register a new account keyed by its email. */
  function Register(s: Store, hash: string -> string, o: Oracle, body: Body): (r: Reply)
    ensures r.status in {200, 400, 500}
    ensures r.store.tokens == s.tokens && r.store.checks == s.checks
    ensures r.status != 200 ==> r.store == s
    ensures NewUser(hash, body).None? ==> r.status == 400
    ensures NewUser(hash, body).Some? && body["email"].s in s.users && !o.Fails(Kv.Users, Kv.ReadOp)
            ==> r.status == 400
    ensures r.status == 200 <==>
      && NewUser(hash, body).Some? && body["email"].s !in s.users
      && !o.Fails(Kv.Users, Kv.CreateOp)
    ensures r.status == 500 <==>
      && NewUser(hash, body).Some?
      && (o.Fails(Kv.Users, Kv.ReadOp) || body["email"].s !in s.users)
      && (o.Fails(Kv.Users, Kv.CreateOp) || body["email"].s in s.users)
    ensures r.status == 200 ==>
      var u := NewUser(hash, body).value;
      && r.store.users == s.users[u.email := u]
      && r.payload == UserData(u)
  {
    match NewUser(hash, body)
    case None => Reply(s, 400, Message("Missing required fields"))
    case Some(u) =>
      match Kv.Read(s.users, u.email, o.Fails(Kv.Users, Kv.ReadOp))
      case Some(_) => Reply(s, 400, Message("Email already exists"))
      case None =>
        match Kv.Create(s.users, u.email, u, o.Fails(Kv.Users, Kv.CreateOp))
        case Some(users) => Reply(s.(users := users), 200, UserData(u))
        case None => Reply(s, 500, Message("Failed to create user"))
  }

  /** `_users.get`: the stored record without its password. */
  function Fetch(s: Store, o: Oracle, req: Request): (r: Reply)
    ensures r.store == s
    ensures r.status in {200, 400, 404}
    ensures r.status == 400 <==> QueryEmail(req).None?
    ensures r.status == 200 <==>
      QueryEmail(req).Some? && !o.Fails(Kv.Users, Kv.ReadOp) && QueryEmail(req).value in s.users
    ensures r.status == 200 ==> r.payload == UserView(WithoutPassword(s.users[QueryEmail(req).value]))
  {
    match QueryEmail(req)
    case None => Reply(s, 400, Message("Missing required field"))
    case Some(email) =>
      match Kv.Read(s.users, email, o.Fails(Kv.Users, Kv.ReadOp))
      case Some(u) => Reply(s, 200, UserView(WithoutPassword(u)))
      case None => Reply(s, 404, MessageEmail("User not found", Some(email)))
  }

  /** The key the update reads and writes: the email field, or the file
      name `false` turns into when the field is missing or blank. */
  function UpdateKey(body: Body): string
  {
    NonBlank(Field(body, "email")).GetOr("false")
  }

  /** The stored record with the supplied fields laid over it. */
  function Merge(u: User, firstName: Option<string>, lastName: Option<string>, password: Option<string>): (m: User)
    ensures m.email == u.email && m.phone == u.phone && m.tos == u.tos && m.checks == u.checks
    ensures m.firstName == (if firstName.Some? then firstName.value else u.firstName)
    ensures m.lastName == (if lastName.Some? then lastName.value else u.lastName)
    ensures m.password == (if password.Some? then password.value else u.password)
  {
    u.(firstName := firstName.GetOr(u.firstName),
       lastName := lastName.GetOr(u.lastName),
       password := password.GetOr(u.password))
  }

  /** `_users.put`: overwrite the supplied names and password. */
  function Update(s: Store, hash: string -> string, o: Oracle, body: Body): (r: Reply)
    ensures r.status in {200, 400, 404, 500}
    ensures r.store.tokens == s.tokens && r.store.checks == s.checks
    ensures r.status != 200 ==> r.store == s
    ensures var firstName, lastName, password :=
              NonBlank(Field(body, "firstName")), NonBlank(Field(body, "lastName")), Hashed(hash, Field(body, "password"));
      && (r.status == 400 <==> firstName.None? && lastName.None? && password.None?)
      && (r.status == 200 <==> && (firstName.Some? || lastName.Some? || password.Some?)
                               && !o.Fails(Kv.Users, Kv.ReadOp) && UpdateKey(body) in s.users
                               && !o.Fails(Kv.Users, Kv.UpdateOp))
      && (r.status == 404 <==> && (firstName.Some? || lastName.Some? || password.Some?)
                               && (o.Fails(Kv.Users, Kv.ReadOp) || UpdateKey(body) !in s.users))
      && (r.status == 500 <==> && (firstName.Some? || lastName.Some? || password.Some?)
                               && !o.Fails(Kv.Users, Kv.ReadOp) && UpdateKey(body) in s.users
                               && o.Fails(Kv.Users, Kv.UpdateOp))
      && (r.status == 200 ==>
            var key := UpdateKey(body);
            var m := Merge(s.users[key], firstName, lastName, password);
            && r.store.users == s.users[key := m]
            && r.payload == UserView(WithoutPassword(m)))
  {
    var firstName := NonBlank(Field(body, "firstName"));
    var lastName := NonBlank(Field(body, "lastName"));
    var password := Hashed(hash, Field(body, "password"));
    var key := UpdateKey(body);
    if firstName.Some? || lastName.Some? || password.Some? then
      match Kv.Read(s.users, key, o.Fails(Kv.Users, Kv.ReadOp))
      case None => Reply(s, 404, Message("User not found"))
      case Some(u) =>
        var m := Merge(u, firstName, lastName, password);
        match Kv.Update(s.users, key, m, o.Fails(Kv.Users, Kv.UpdateOp))
        case Some(users) => Reply(s.(users := users), 200, UserView(WithoutPassword(m)))
        case None => Reply(s, 500, Message("Failed to update user"))
    else
      Reply(s, 400, Message("Missing required fields"))
  }

  /** `_users.delete`: unlink the user record; checks and tokens that name
      the email stay where they are. */
  function Delete(s: Store, o: Oracle, req: Request): (r: Reply)
    ensures r.status in {200, 400, 404}
    ensures r.store.tokens == s.tokens && r.store.checks == s.checks
    ensures r.status != 200 ==> r.store == s
    ensures r.status == 400 <==> QueryEmail(req).None?
    ensures r.status == 200 <==>
      QueryEmail(req).Some? && !o.Fails(Kv.Users, Kv.DeleteOp) && QueryEmail(req).value in s.users
    ensures r.status == 200 ==> r.store.users == s.users - {QueryEmail(req).value}
  {
    var email := match NonBlank(QueryField(req, "email"))
      case Some(e) => Some(StripQuotes(e))
      case None => None;
    if email.None? || email.value == "" then
      Reply(s, 400, MessageEmail("Missing required field", email))
    else
      match Kv.Delete(s.users, email.value, o.Fails(Kv.Users, Kv.DeleteOp))
      case Some(users) => Reply(s.(users := users), 200, MessageEmail("User deleted successfully", email))
      case None => Reply(s, 404, MessageEmail("User not found", email))
  }

  /** `userHandler`: lowercase the method, answer 405 outside the four
      accepted ones, otherwise run the matching operation. */
  function Handle(s: Store, hash: string -> string, o: Oracle, req: Request): (r: Reply)
    ensures r.store.tokens == s.tokens && r.store.checks == s.checks
    ensures r.status == 405 <==> !Accepted(req.httpMethod)
    ensures r.status == 405 ==> r.store == s && r.payload == MethodNotAllowed
    ensures Lower(req.httpMethod) == "post" ==> r == Register(s, hash, o, req.body)
    ensures Lower(req.httpMethod) == "get" ==> r == Fetch(s, o, req)
    ensures Lower(req.httpMethod) == "put" ==> r == Update(s, hash, o, req.body)
    ensures Lower(req.httpMethod) == "delete" ==> r == Delete(s, o, req)
  {
    var m := Lower(req.httpMethod);
    if m == "post" then Register(s, hash, o, req.body)
    else if m == "get" then Fetch(s, o, req)
    else if m == "put" then Update(s, hash, o, req.body)
    else if m == "delete" then Delete(s, o, req)
    else Reply(s, 405, MethodNotAllowed)
  }

  /** The email parameter, sent bare or wrapped in quotes, names the
      account `e` once the quotes are stripped. */
  lemma QueryEmailNames(req: Request, e: string)
    requires !IsBlank(e)
    requires "email" in req.query
    requires req.query["email"] == "\"" + e + "\"" || (e[0] != '"' && e[|e| - 1] != '"' && req.query["email"] == e)
    ensures QueryEmail(req) == Some(e)
  {
    var q := req.query["email"];
    if q == "\"" + e + "\"" {
      StripQuotesOfQuoted(e);
      assert q[0] == '"' && !IsSpace(q[0]);
    } else {
      StripQuotesShape(e);
    }
  }

  /** Registering and then fetching by the email, sent bare or wrapped in
      quotes, answers with every registered field but the password. */
  lemma RegisterThenFetch(s: Store, hash: string -> string, o: Oracle, body: Body, o2: Oracle, req: Request)
    requires Register(s, hash, o, body).status == 200
    requires !o2.Fails(Kv.Users, Kv.ReadOp)
    requires "email" in req.query
    requires var e := body["email"].s;
      req.query["email"] == "\"" + e + "\"" || (e[0] != '"' && e[|e| - 1] != '"' && req.query["email"] == e)
    ensures var u := NewUser(hash, body).value;
      Fetch(Register(s, hash, o, body).store, o2, req) == Reply(Register(s, hash, o, body).store, 200, UserView(WithoutPassword(u)))
  {
    var u := Registered(s, hash, o, body);
    QueryEmailNames(req, u.email);
  }

  /** Registering and then deleting the same email restores the store. */
  lemma RegisterThenDelete(s: Store, hash: string -> string, o: Oracle, body: Body, o2: Oracle, req: Request)
    requires Register(s, hash, o, body).status == 200
    requires !o2.Fails(Kv.Users, Kv.DeleteOp)
    requires var e := body["email"].s;
      e[0] != '"' && e[|e| - 1] != '"' && req.query == map["email" := e]
    ensures Delete(Register(s, hash, o, body).store, o2, req).store == s
  {
    var u := Registered(s, hash, o, body);
    QueryEmailNames(req, u.email);
    DeleteAfterCreate(s, u, o2, req);
  }

  /** The record a successful registration adds, and the store it leaves. */
  lemma Registered(s: Store, hash: string -> string, o: Oracle, body: Body) returns (u: User)
    requires Register(s, hash, o, body).status == 200
    ensures u == NewUser(hash, body).value && u.email == body["email"].s && !IsBlank(u.email)
    ensures u.email !in s.users
    ensures Register(s, hash, o, body).store == s.(users := s.users[u.email := u])
  {
    u := NewUser(hash, body).value;
  }

  lemma DeleteAfterCreate(s: Store, u: User, o2: Oracle, req: Request)
    requires u.email !in s.users
    requires QueryEmail(req) == Some(u.email)
    requires !o2.Fails(Kv.Users, Kv.DeleteOp)
    ensures Delete(s.(users := s.users[u.email := u]), o2, req).store == s
  {
    var s1 := s.(users := s.users[u.email := u]);
    var r := Delete(s1, o2, req);
    assert r.status == 200;
    assert s1.users - {u.email} == s.users;
    assert r.store.users == s.users;
  }
}

=== FILE: wrappers.dfy ===
/** Optional values. The handlers validate each request field into either the
    field's value or JavaScript's `false`; `None` plays the part of `false`. */
module Wrappers {

  datatype Option<+T> = None | Some(value: T) {

    /** The value, or `default` when there is none (JavaScript's `a || b`
        when `a` is the validated field). */
    function GetOr(default: T): T
    {
      match this
      case Some(v) => v
      case None => default
    }
  }
}
